=== FILE: README.md ===
# ERP-Dashboard sales core in Dafny

This project models the state layer of the ERP-Dashboard single-page app and
the one piece of business logic built on it:

- the four entity stores — clients, products, sales ("sells") and users;
- the sale page's three handlers, which keep product stock in step with the sales;
- the sale form's submit handler;
- the date formatter.

Each store holds an ordered list of records:

- `add` appends a record under a fresh id with timestamps set from the clock;
- `update` merges the supplied fields into every record carrying the id (JavaScript object spread);
- `delete` filters out the records carrying the id;
- `get` returns the first record carrying it.

The client store also starts from five sample clients. It tallies clients
per segment: retail, wholesale, corporate.

The sale page (`Vendas.tsx`) couples the sale list to product stock:

- adding a sale takes its quantity off its product;
- editing a sale moves the product's stock by the old quantity minus the new one;
- deleting a sale gives its quantity back.

The sale form refuses a quantity above the selected product's stock.

Modules:

- `Common`: `Option`, ids, timestamps and JavaScript spread.
- `EntityStore`: the generic list operations, parameterised by a key function.
- `Products`, `Sells`, `Users`, `Clients`: the four stores.
- `JsText`: `String(n)` for integers in plain decimal, `padStart` with a one-character filler, and `parseInt` without a radix argument, following ECMA-262 within the limits listed under Left out.
- `SellForm`: the sale form's submit handler.
- `SalePage`: the sale page's handlers, and the stock/sales ledger they are meant to conserve.
- `DateFormat`: `formatDateToBrazilian`.

Conventions:

- State is a pure value: a store operation takes a list and returns the new list.
- The page works on an `Inventory`: the product list together with the sale list.
- `crypto.randomUUID()` becomes a caller-supplied `id` that no record carries yet.
- `new Date()` becomes a caller-supplied clock reading `now`.
- A sale's quantity lives in its `stock` field, as in the source.
- `Listed(products, pid)` holds when some product carries the id `pid`; "the listed ids" below means the set of ids for which it holds.
- `StockOf(products, pid)` is the stock the page sees for `pid` (its "seen stock"): the stock of the first product carrying the id, or 0 when none does. It is the same value as the form's cap `SellForm.MaxQuantity`, and is defined as it.
- `Ledger(inv, pid)` is that stock plus the quantity the sales record against `pid`.

Points where the code's behaviour is easy to misread:

- The three segment counts need not add up to the number of clients, because a segment is an unchecked string and only the three listed segments are counted. `Clients.SegmentCountsSum` proves the sum is at most the number of clients, and equal to it exactly when every client's segment is listed.
- An update merges into every record carrying the id, not just the first. With unique ids exactly one record changes (`Sells.UpdateExistingSell`).
- `updateUser` refreshes no timestamp: with unique ids, resubmitting a user's own data leaves the list unchanged (`Users.UpdateUserWithSameData`). With two users sharing an id, both would take the first one's name, email and role.
- Editing a sale applies the old-minus-new quantity to the product of the NEW sale data, not to the product the sale was recorded against (see Findings).

## Model

| member | source | states |
|---|---|---|
| EntityStore.Find | src/hooks/useProductStore.ts:41-43 | `find` returns nothing exactly when no record carries the id; otherwise it returns the first record that does |
| EntityStore.UpdateWhere | src/hooks/useProductStore.ts:20-32 | the mapped list has the same length; records with another id are unchanged in place; every record with the id is replaced by its merge; an unknown id leaves the list as it was |
| EntityStore.RemoveId | src/hooks/useProductStore.ts:35-38 | the filtered list holds no record with the id and only records of the input; it keeps every record with another id; it is strictly shorter when the id was present and unchanged when it was not; order and multiplicity are stated by `EntityStore.RemoveIdConcat` |
| EntityStore.RemoveIdConcat | src/hooks/useProductStore.ts:35-38 | the filter distributes over concatenation, so the survivors keep their order and multiplicity; the same filter deletes sales, users and clients (useSellStore.ts:35-38, useUserStore.ts:29-32, useClientStore.ts:91-94) |
| EntityStore.AppendThenRemove | src/hooks/useProductStore.ts:8-38 | filtering out a freshly appended record's id gives back the original list |
| EntityStore.RemoveUnique | src/hooks/useProductStore.ts:35-38 | with unique ids, filtering by the id of the record at k removes exactly that record and keeps the order of the rest |
| EntityStore.UpdateUnique | src/hooks/useProductStore.ts:20-32 | with unique ids, updating the id of the record at k replaces exactly that record by its merge |
| EntityStore.FindAfterUpdate | src/hooks/useProductStore.ts:20-43 | after an update that keeps ids, a get of the id finds the merge of what it found before; a get of another id finds the same record as before |
| EntityStore.RemoveKeepsUnique | src/hooks/useProductStore.ts:35-38 | filtering never introduces a duplicate id |
| Products.InitialProducts | src/hooks/useProductStore.ts:5 | the store starts with no products |
| Products.AddProduct | src/hooks/useProductStore.ts:8-17 | the new product has the fresh id, every supplied field, and both timestamps equal to now; it goes after the unchanged existing list; unique ids stay unique |
| Products.UpdateProduct | src/hooks/useProductStore.ts:20-32 | each product with the id takes the supplied fields; it keeps its id, and keeps its createdAt unless one is supplied; its updatedAt becomes now; other products are unchanged in place; an unknown id changes nothing |
| Products.DeleteProduct | src/hooks/useProductStore.ts:35-38 | the result has no product with the id and keeps every other product; an unknown id changes nothing; the order of the survivors is stated by `EntityStore.RemoveIdConcat` and, with unique ids, `Products.DeleteExistingProduct` |
| Products.GetProduct | src/hooks/useProductStore.ts:41-43 | returns nothing exactly when no product carries the id; otherwise returns the first product that does |
| Products.DeleteProductIdempotent | src/hooks/useProductStore.ts:35-38 | deleting twice is the same as deleting once |
| Products.AddThenDeleteProduct | src/hooks/useProductStore.ts:8-38 | deleting the returned product's id undoes the add |
| Products.GetAddedProduct | src/hooks/useProductStore.ts:8-43 | a get of the new id finds exactly the record that the add returned |
| Products.DeleteExistingProduct | src/hooks/useProductStore.ts:35-38 | with unique ids, deleting an existing product removes that one record and nothing else |
| Products.MergerKeepsKey | src/hooks/useProductStore.ts:23-27 | the update merge never changes a record's id, because the data carries no id |
| Products.GetAfterUpdate | src/hooks/useProductStore.ts:20-43 | after an update, a get of the id finds the merged product, or still nothing; a get of any other id is unaffected |
| Products.UpdateProductKeepsUnique | src/hooks/useProductStore.ts:20-32 | an update keeps ids unique |
| Products.DeleteProductKeepsUnique | src/hooks/useProductStore.ts:35-38 | a delete keeps ids unique |
| Sells.InitialSells | src/hooks/useSellStore.ts:5 | the store starts with no sales |
| Sells.AddSell | src/hooks/useSellStore.ts:8-17 | the new sale has the fresh id, every supplied field (including quantity, product and client), and both timestamps equal to now; it goes after the unchanged existing list |
| Sells.UpdateSell | src/hooks/useSellStore.ts:20-32 | each sale with the id takes the supplied fields; it keeps its id; it keeps its client and createdAt unless these are supplied; its updatedAt becomes now; other sales are unchanged in place |
| Sells.DeleteSell | src/hooks/useSellStore.ts:35-38 | the result has no sale with the id and keeps every other sale; an unknown id changes nothing; the order of the survivors is stated by `EntityStore.RemoveIdConcat` and, with unique ids, `Sells.DeleteExistingSell` |
| Sells.GetSell | src/hooks/useSellStore.ts:41-43 | returns nothing exactly when no sale carries the id; otherwise returns the first sale that does |
| Sells.DeleteSellIdempotent | src/hooks/useSellStore.ts:35-38 | deleting twice is the same as deleting once |
| Sells.AddThenDeleteSell | src/hooks/useSellStore.ts:8-38 | deleting the returned sale's id undoes the add |
| Sells.GetAddedSell | src/hooks/useSellStore.ts:8-43 | a get of the new id finds exactly the record that the add returned |
| Sells.GetExistingSell | src/hooks/useSellStore.ts:41-43 | with unique ids, a get of an existing sale's id finds exactly that sale |
| Sells.UpdateExistingSell | src/hooks/useSellStore.ts:20-32 | with unique ids, updating an existing sale replaces exactly that record by its merge |
| Sells.DeleteExistingSell | src/hooks/useSellStore.ts:35-38 | with unique ids, deleting an existing sale removes that one record and is one shorter |
| Sells.MergerKeepsKey | src/hooks/useSellStore.ts:23-27 | the update merge never changes a record's id |
| Sells.UpdateSellKeepsUnique | src/hooks/useSellStore.ts:20-32 | an update keeps ids unique |
| Sells.DeleteSellKeepsUnique | src/hooks/useSellStore.ts:35-38 | a delete keeps ids unique |
| Users.InitialUsers | src/hooks/useUserStore.ts:5 | the store starts with no users |
| Users.AddUser | src/hooks/useUserStore.ts:7-15 | the new user has the fresh id, name, email and role, and createdAt equal to now; it goes after the unchanged existing list |
| Users.UpdateUser | src/hooks/useUserStore.ts:17-27 | each user with the id takes the new name, email and role; it keeps its id and createdAt; other users are unchanged |
| Users.DeleteUser | src/hooks/useUserStore.ts:29-32 | the result has no user with the id and keeps every other user; an unknown id changes nothing; the order of the survivors is stated by `EntityStore.RemoveIdConcat` and, with unique ids, `Users.DeleteExistingUser` |
| Users.GetUserById | src/hooks/useUserStore.ts:34-36 | returns null (None) exactly when no user carries the id; otherwise returns the first user that does |
| Users.DeleteExistingUser | src/hooks/useUserStore.ts:29-32 | with unique ids, deleting an existing user removes that one record and keeps the others in their order |
| Users.DeleteUserIdempotent | src/hooks/useUserStore.ts:29-32 | deleting twice is the same as deleting once |
| Users.AddThenDeleteUser | src/hooks/useUserStore.ts:7-32 | deleting the returned user's id undoes the add |
| Users.GetAddedUser | src/hooks/useUserStore.ts:7-36 | a get of the new id finds exactly the record that the add returned |
| Users.UpdateUserWithSameData | src/hooks/useUserStore.ts:17-27 | with unique ids, re-submitting a user's own data changes nothing: no timestamp moves |
| Users.MergerKeepsKey | src/hooks/useUserStore.ts:20-23 | the update merge never changes a record's id |
| Users.UpdateUserKeepsUnique | src/hooks/useUserStore.ts:17-27 | an update keeps ids unique |
| Users.DeleteUserKeepsUnique | src/hooks/useUserStore.ts:29-32 | a delete keeps ids unique |
| Clients.DefaultClients | src/hooks/useClientStore.ts:5-61 | the seed list holds five clients with ids "1" to "5", all distinct |
| Clients.AddClient | src/hooks/useClientStore.ts:64-73 | the new client carries exactly the supplied fields, the fresh id, and both timestamps equal to now; it goes after the unchanged existing list |
| Clients.UpdateClient | src/hooks/useClientStore.ts:76-88 | each client with the id takes exactly the fields the patch supplies and keeps every field the patch omits; it keeps its id and createdAt; its updatedAt becomes now; other clients are unchanged |
| Clients.DeleteClient | src/hooks/useClientStore.ts:91-94 | the result has no client with the id and keeps every other client; an unknown id changes nothing; the order of the survivors is stated by `EntityStore.RemoveIdConcat` and, with unique ids, `Clients.DeleteExistingClient` |
| Clients.GetClient | src/hooks/useClientStore.ts:97-99 | returns nothing exactly when no client carries the id; otherwise returns the first client that does |
| Clients.EmptyPatchOnlyTouchesUpdatedAt | src/hooks/useClientStore.ts:76-88 | an update that supplies no field only moves updatedAt |
| Clients.UpdateClientIdempotent | src/hooks/useClientStore.ts:76-88 | the same patch applied twice at the same instant is the same as applying it once |
| Clients.DeleteExistingClient | src/hooks/useClientStore.ts:91-94 | with unique ids, deleting an existing client removes that one record and keeps the others in their order |
| Clients.DeleteClientIdempotent | src/hooks/useClientStore.ts:91-94 | deleting twice is the same as deleting once |
| Clients.AddThenDeleteClient | src/hooks/useClientStore.ts:64-94 | deleting the returned client's id undoes the add |
| Clients.MergerKeepsKey | src/hooks/useClientStore.ts:79-83 | the update merge never changes a record's id |
| Clients.UpdateClientKeepsUnique | src/hooks/useClientStore.ts:76-88 | an update keeps ids unique |
| Clients.DeleteClientKeepsUnique | src/hooks/useClientStore.ts:91-94 | a delete keeps ids unique |
| Clients.BumpFirst | src/hooks/useClientStore.ts:110-111 | `find` then `count++` adds one to the first entry with the segment's id only; ids and names are unchanged |
| Clients.BumpTable | src/hooks/useClientStore.ts:103-111 | on the three-segment table, a client adds one to its own segment's entry only |
| Clients.Tally | src/hooks/useClientStore.ts:109-112 | after the loop, each of the three entries counts the clients carrying that segment, according to the multiset reference count |
| Clients.GetClientSegments | src/hooks/useClientStore.ts:102-115 | returns exactly three entries in order: retail/Varejo, wholesale/Atacado, corporate/Corporativo; each counts the clients carrying that segment |
| Clients.SegmentCountsSum | src/hooks/useClientStore.ts:102-115 | the three counts sum to at most the number of clients, and to exactly that number if and only if every client's segment is one of the three |
| Clients.DefaultSegments | src/hooks/useClientStore.ts:5-115 | the seed list tallies to retail 2, wholesale 1, corporate 2 |
| Clients.OneRetailClient | src/hooks/useClientStore.ts:64-115 | one retail client added to an empty store tallies to retail 1, wholesale 0, corporate 0 |
| JsText.NatToString | src/utils.ts:17-18 | `String(n)` is a non-empty run of decimal digits with no leading zero |
| JsText.NatToStringLength | src/utils.ts:17-18 | `String(n)` has one digit exactly when n < 10, and two digits exactly when 10 <= n < 100 |
| JsText.IntToString | src/utils.ts:19-22 | the year's text starts with '-' exactly when the year is negative, and the digit run after the optional sign is non-empty and worth the year's magnitude |
| JsText.PadStart | src/utils.ts:17-18 | `padStart` leaves a long-enough string alone; otherwise it reaches the width by putting filler characters in front of the unchanged string |
| JsText.ParseInt | src/components/sells/SellForm.tsx:27 | `parseInt` is NaN on empty or blank text, and on text whose first non-blank character is not a digit or a sign |
| JsText.ParseIntOfIntToString | src/components/sells/SellForm.tsx:16-27 | `parseInt(String(n) + rest)` is n whenever rest does not continue the number |
| JsText.ParseIntOfPadded | src/utils.ts:17-18 | `parseInt` reads a zero-padded `String(n)` back as n |
| SellForm.QuantityOf | src/components/sells/SellForm.tsx:27 | `parseInt(quantity)` with the fallback to 0: NaN becomes 0, and any non-zero quantity is the parsed number; the values for concrete texts are stated by `SellForm.QuantityOfNonNumeric` and `SellForm.QuantityOfNumberText` |
| SellForm.MaxQuantity | src/components/sells/SellForm.tsx:20-21 | the cap is 0 when no product carries the selected id; otherwise it is the stock of the first product that does |
| SellForm.SelectedName | src/components/sells/SellForm.tsx:20-33 | the name is "" when no product carries the selected id; otherwise it is the name of the first product that does |
| SellForm.HandleSubmit | src/components/sells/SellForm.tsx:25-39 | refuses (None) if and only if the parsed quantity exceeds the cap; otherwise emits a record with that quantity, the selected product id and its name, the description and the price text, and no client and no createdAt |
| SellForm.QuantityOfNumberText | src/components/sells/SellForm.tsx:16-27 | a quantity shown as `stock.toString()` parses back to that stock, even with a fraction or exponent after it |
| SellForm.QuantityOfNonNumeric | src/components/sells/SellForm.tsx:27 | text that does not start with a digit or sign counts as quantity 0 |
| SellForm.NoProductAcceptsNothingPositive | src/components/sells/SellForm.tsx:20-31 | with no product selected, exactly the quantities <= 0 are accepted, and they carry the name "" |
| SalePage.MergeWithStock | src/components/pages/Vendas.tsx:56-59 | merging `{...product, stock}` into that same product changes only its stock and updatedAt |
| SalePage.WriteStock | src/components/pages/Vendas.tsx:53-59 | after the write, a get of the product finds it with the new stock and updatedAt equal to now |
| SalePage.AdjustStock | src/components/pages/Vendas.tsx:53-59 | an unlisted product leaves the list unchanged; a listed one is found afterwards with its stock moved by the delta, and no lower bound applies |
| SalePage.WriteStockOther | src/components/pages/Vendas.tsx:53-59 | writing one product's stock leaves what a get of any other id finds |
| SalePage.AdjustStockOther | src/components/pages/Vendas.tsx:53-59 | adjusting one product leaves what a get of any other id finds |
| SalePage.AdjustStockOf | src/components/pages/Vendas.tsx:53-59 | the listed products stay the same; the seen stock moves by the delta for the adjusted id when it is listed, and by nothing for every other id |
| SalePage.HandleAddSell | src/components/pages/Vendas.tsx:51-64 | the sale list gains exactly one sale at the end, under the fresh id, with the data's product and quantity |
| SalePage.HandleUpdateSell | src/components/pages/Vendas.tsx:66-85 | without a selected sale nothing happens; otherwise the list length is kept and the selected sale takes the new product and quantity |
| SalePage.HandleDeleteConfirm | src/components/pages/Vendas.tsx:87-102 | without a selected sale nothing happens; otherwise the selected sale's id is gone |
| SalePage.AddSellStock | src/components/pages/Vendas.tsx:51-64 | the listed products are kept; the sold product's seen stock drops by the quantity if it is listed; every other stock is unchanged |
| SalePage.UpdateSellStock | src/components/pages/Vendas.tsx:66-85 | the listed products are kept; the NEW product's seen stock moves by old minus new quantity if it is listed; every other stock is unchanged |
| SalePage.DeleteSellStock | src/components/pages/Vendas.tsx:87-102 | the listed products are kept; the sale's product gets the quantity back if it is listed; every other stock is unchanged |
| SalePage.UpdateSellSold | src/hooks/useSellStore.ts:20-32 | an edit of the sale at k moves the quantity recorded against each id by the new share minus the old share |
| SalePage.AddSellKeepsLedger | src/components/pages/Vendas.tsx:51-64 | adding a sale keeps stock plus sold quantity for every id whose product is listed |
| SalePage.DeleteSellKeepsLedger | src/components/pages/Vendas.tsx:87-102 | deleting a sale keeps stock plus sold quantity for every id whose product is listed |
| SalePage.UpdateSameProductKeepsLedger | src/components/pages/Vendas.tsx:66-85 | an edit that keeps the product keeps stock plus sold quantity for every listed id |
| SalePage.UpdateOtherProductShiftsLedger | src/components/pages/Vendas.tsx:66-85 | an edit that moves a sale to another listed product takes the old quantity off the old product's ledger and adds it to the new one's |
| SalePage.AddSellLeavesOtherProducts | src/components/pages/Vendas.tsx:53-60 | adding a sale leaves every product that does not carry the sold id exactly as a get found it |
| SalePage.UpdateSellLeavesOtherProducts | src/components/pages/Vendas.tsx:72-79 | editing a sale leaves every product other than the new one exactly as a get found it |
| SalePage.DeleteSellLeavesOtherProducts | src/components/pages/Vendas.tsx:90-97 | deleting a sale leaves every product other than its own exactly as a get found it |
| SalePage.SubmittedAddKeepsStock | src/components/sells/SellForm.tsx:27-31 | a sale that the form accepts never takes its product's seen stock below zero |
| SalePage.SubmittedEditKeepsStock | src/components/sells/SellForm.tsx:20-31 | an accepted edit on the same listed product leaves that product at least the sale's old quantity |
| SalePage.ExampleOversell | src/components/pages/Vendas.tsx:53-59 | without the form's check, selling 8 of 7 units leaves the stock at -1 |
| SalePage.AddThenDeleteRestores | src/components/pages/Vendas.tsx:51-102 | deleting the sale just added restores the sale list, which ids are listed, and every id's seen stock; the product records are not restored, since each stock write sets their updatedAt |
| SalePage.EditLastSale | src/hooks/useSellStore.ts:20-32 | editing the last sale of a uniquely keyed list replaces it by its merge in place |
| SalePage.StockRoundTrip | src/components/pages/Vendas.tsx:51-102 | add, then a same-product edit, then delete: the three stock adjustments cancel out for every id |
| SalePage.AddEditDeleteRestores | src/components/pages/Vendas.tsx:51-102 | add, then a same-product edit, then delete restores the sale list, which ids are listed, and every id's seen stock; the product records keep the later updatedAt |
| SalePage.ExampleSaleLifecycle | src/components/pages/Vendas.tsx:51-102 | on a product with 10 in stock: selling 3 leaves 7; editing the sale to 5 leaves 5; deleting it gives 10 and an empty sale list |
| SalePage.ExampleCrossProductEdit | src/components/pages/Vendas.tsx:66-85 | as written, moving a sale of 3 from A (7) to 2 of B (5) leaves A at 7 and B at 6 |
| SalePage.HandleUpdateSellIntended | src/components/pages/Vendas.tsx:66-85 | the corrected edit: without a selected sale nothing happens; otherwise the list length is kept and the selected sale takes the new product and quantity |
| SalePage.UpdateIntendedStock | src/components/pages/Vendas.tsx:66-85 | the corrected edit gives the old quantity back to the old product, takes the new quantity off the new product (each if listed), and leaves every other stock |
| SalePage.UpdateIntendedKeepsLedger | src/components/pages/Vendas.tsx:66-85 | the corrected edit keeps stock plus sold quantity for every listed id, whether or not the product changes |
| SalePage.UpdateIntendedAgreesOnSameProduct | src/components/pages/Vendas.tsx:66-85 | when the product does not change, the corrected edit and the written one give the same sales, listed products and stocks |
| SalePage.ExampleCrossProductEditIntended | src/components/pages/Vendas.tsx:66-85 | on the same example, the corrected edit leaves A at 10 and B at 3 |
| DateFormat.TwoDigits | src/utils.ts:17-18 | `String(n).padStart(2, '0')` is exactly two digit characters for n < 100 |
| DateFormat.FormatDateToBrazilian | src/utils.ts:1-27 | null, undefined and invalid dates give ""; a valid date gives two characters, "/", two characters, "/", then the unpadded year |
| DateFormat.TwoDigitsReadBack | src/utils.ts:17-18 | a two-digit field parses back as its number |
| DateFormat.FormatFields | src/utils.ts:17-22 | the output is the day field, the month field and the year, separated by slashes |
| DateFormat.FormatReadsBack | src/utils.ts:17-22 | the day field reads as getDate() + 1, the month field as getMonth() + 1, and the rest as the year |
| DateFormat.MonthFieldInRange | src/utils.ts:18-22 | the month field always lies between "01" and "12" |
| DateFormat.ThirtyFirstRendersAs32 | src/utils.ts:17 | as written, any date whose `getDate()` is 31 (in any month that has a 31st) renders with day field "32" |
| DateFormat.FourDigitYearIsTenCharacters | src/utils.ts:17-22 | a four-digit year gives the ten characters of dd/mm/yyyy |
| DateFormat.FormatDateCorrected | src/utils.ts:1-27 | the corrected formatter keeps the layout and gives "" for null, undefined and invalid dates |
| DateFormat.CorrectedFields | src/utils.ts:17-22 | the corrected output is getDate() padded to two digits, the month field and the year, separated by slashes |
| DateFormat.CorrectedReadsBack | src/utils.ts:17-22 | the corrected output reads back as the date's own day (1 to 31), its month and its year |

## Left out

- Persistence (`useLocalStorage`, JSON serialisation, read-error fallback): each store is modelled as the list value it holds. A corrupt or missing stored value is the store's initial value.
- React state and rendering: modals, tables, `setSelectedSell`, and the stale snapshot a second `useProductStore` instance inside the form may hold. The form is given the page's product list.
- `crypto.randomUUID()` and `new Date()`: these are parameters. Ids are assumed fresh, and the clock is an integer reading with no monotonicity.
- Products.AddProduct: one clock reading `now` stands for the two `new Date()` calls at useProductStore.ts:12-13, so the contract promises `createdAt == updatedAt`, which the program does not guarantee (the readings can differ by a millisecond).
- Sells.AddSell: one clock reading `now` stands for the two `new Date()` calls at useSellStore.ts:12-13, so the contract promises `createdAt == updatedAt`, which the program does not guarantee.
- Clients.AddClient: one clock reading `now` stands for the two `new Date()` calls at useClientStore.ts:68-69, so the contract promises `createdAt == updatedAt`, which the program does not guarantee.
- Clients.DefaultClients: one clock reading stands for the ten `new Date()` calls of the seed list (useClientStore.ts:14-59).
- Users.AddUser: `createdAt` is the clock reading, not its ISO-8601 string.
- Floating point: `parseFloat(price)`, the total price and `totalPrice.toString()`. The price text is a parameter of `SellForm.HandleSubmit`. Prices stay as text in every store.
- SalePage.AddSellKeepsLedger, SalePage.DeleteSellKeepsLedger, SalePage.UpdateSameProductKeepsLedger, SalePage.AddThenDeleteRestores, SalePage.StockRoundTrip, SalePage.AddEditDeleteRestores: stock and quantity arithmetic (Vendas.tsx:55, 74 and 92) is exact integer arithmetic in the model, whereas a JavaScript `number` is a double that rounds once magnitudes pass 2^53. For example, stock 2^53 + 2, selling 1 and deleting that sale gives 2^53 in JavaScript but 2^53 + 2 in the model. These lemmas, like the other stock lemmas of `SalePage`, describe the program only below 2^53.
- JsText.NatToString: integers are always printed in plain decimal digits. ECMA-262 `Number::toString` switches to exponent form from 10^21 (`String(1e21)` is "1e+21"), so for such magnitudes `JsText.IntToString`, `JsText.ParseIntOfIntToString` and `SellForm.QuantityOfNumberText` do not describe JavaScript. The dashboard's quantities and dates stay far below that.
- JsText.PadStart: only a one-character filler is modelled; `padStart` with a longer or empty filler string is not. The dashboard pads only with "0".
- JsText.ParseInt: magnitudes above 2^53 are exact in the model, whereas JavaScript rounds them. Only the leading-space set of ECMA-262 and radices 10 and 16 are modelled.
- DateFormat.FormatDateToBrazilian: string-to-Date parsing, time zones and the `try`/`catch` are not modelled. A string argument is already the date it parses to, and an unparsable one is `InvalidDate`.
- Calendar validity: a `ValidDate` does not tie its day to the month's length, so it also admits impossible dates such as 31 February. `DateFormat.ThirtyFirstRendersAs32` is therefore stated for any date whose `getDate()` is 31; only the months that have a 31st give real inputs.
- HTML form validation (`min="1"`, `max`, `required`): the browser may block a submission before `handleSubmit` runs. The model does not rely on that, so negative quantities reach the handlers.
- `src/lib/formatters.ts` (currency formatting), the reports page, the dashboard and the other pages: outside the modelled core.
- SalePage.HandleDeleteConfirm: its own contract only says the sale's id is gone. That the deleted record is exactly the selected one (with unique ids) is stated by `Sells.DeleteExistingSell` and used in `DeleteSellKeepsLedger`.

## Findings

| source | as written | input that shows it | evidently intended | confidence | as-written member | corrected member |
|---|---|---|---|---|---|---|
| src/components/pages/Vendas.tsx:66-85 | `handleUpdateSell` applies old minus new quantity to the product of the NEW data; the old product never gets its units back | products A (stock 7) and B (stock 5), one sale of 3 units of A, edited to 2 units of B: A stays 7, B becomes 6 | the old quantity returns to the old product and the new quantity leaves the new product: A 10, B 3, so stock plus sold quantity is conserved | high; not executed | SalePage.UpdateOtherProductShiftsLedger | SalePage.UpdateIntendedKeepsLedger |
| src/utils.ts:17 | the day field is `getDate() + 1` | any date on the 31st renders with day "32", e.g. 31 January 2025 gives "32/01/2025" | the day field is the date's own day of the month, 01 to 31 | medium (the `+ 1` may compensate for UTC parsing of date-only strings, but it still yields "32"); not executed | DateFormat.ThirtyFirstRendersAs32 | DateFormat.CorrectedReadsBack |

=== FILE: clients.dfy ===
/** The client store (`useClientStore`): an ordered list of clients seeded
    with five sample records, plus the per-segment tally. */
module Clients {
  import opened Common
  import EntityStore

  /** A client. `segment` is the text the client form submits ("retail",
      "wholesale", "corporate"); it is kept open because nothing constrains
      it at run time. `lastPurchase` is carried by the seed data and the form. */
  datatype Client = Client(
    id: Id,
    name: string,
    email: string,
    phone: string,
    segment: string,
    value: string,
    address: Option<string>,
    notes: Option<string>,
    productId: Option<Id>,
    quantity: Option<int>,
    birthDate: Option<string>,
    lastPurchase: Option<string>,
    createdAt: Timestamp,
    updatedAt: Timestamp)

  /** `Omit<Client, 'id' | 'createdAt' | 'updatedAt'>`, the argument of add. */
  datatype ClientData = ClientData(
    name: string,
    email: string,
    phone: string,
    segment: string,
    value: string,
    address: Option<string>,
    notes: Option<string>,
    productId: Option<Id>,
    quantity: Option<int>,
    birthDate: Option<string>,
    lastPurchase: Option<string>)

  /** `Partial<Omit<Client, 'id' | 'createdAt' | 'updatedAt'>>`, the argument
      of update: every field may be left out. */
  datatype ClientPatch = ClientPatch(
    name: Option<string>,
    email: Option<string>,
    phone: Option<string>,
    segment: Option<string>,
    value: Option<string>,
    address: Option<string>,
    notes: Option<string>,
    productId: Option<Id>,
    quantity: Option<int>,
    birthDate: Option<string>,
    lastPurchase: Option<string>)

  /** A new list together with the record `addClient` returns. */
  datatype Added = Added(clients: seq<Client>, client: Client)

  /** One entry of the segment tally. */
  datatype SegmentCount = SegmentCount(id: string, name: string, count: nat)

  function Key(c: Client): Id { c.id }

  function SeedClient(id: Id, name: string, email: string, phone: string, segment: string,
                      lastPurchase: string, value: string, now: Timestamp): Client
  {
    Client(id, name, email, phone, segment, value, None, None, None, None, None,
           Some(lastPurchase), now, now)
  }

  /** The value the store holds before anything was persisted: five sample
      clients stamped with the clock reading `now`. */
  function DefaultClients(now: Timestamp): (r: seq<Client>)
    ensures |r| == 5
    ensures forall i :: 0 <= i < 5 ==> r[i].id == ["1", "2", "3", "4", "5"][i]
    ensures EntityStore.UniqueIds(r, Key)
  {
    [ SeedClient("1", "Empresa ABC Ltda", "contato@abc.com", "(11) 9999-8888", "corporate",
                 "15/04/2025", "R$ 12.500", now),
      SeedClient("2", "Comércio XYZ", "contato@xyz.com", "(11) 7777-6666", "retail",
                 "10/04/2025", "R$ 3.200", now),
      SeedClient("3", "Distribuidora 123", "vendas@123.com", "(11) 5555-4444", "wholesale",
                 "05/04/2025", "R$ 8.750", now),
      SeedClient("4", "Loja FastShop", "atendimento@fastshop.com", "(11) 3333-2222", "retail",
                 "01/04/2025", "R$ 2.100", now),
      SeedClient("5", "Corporação Global", "contato@global.com", "(11) 1111-0000", "corporate",
                 "28/03/2025", "R$ 15.800", now) ]
  }

  /** `addClient`: a record carrying every supplied field, the fresh id and
      both timestamps set to `now`, appended after every existing client. The
      source reads the clock twice; the single reading `now` stands for both. */
  function AddClient(clients: seq<Client>, data: ClientData, id: Id, now: Timestamp): (r: Added)
    requires EntityStore.Fresh(clients, Key, id)
    ensures r.client.id == id && r.client.createdAt == now && r.client.updatedAt == now
    ensures Strip(r.client) == data
    ensures |r.clients| == |clients| + 1
    ensures r.clients[..|clients|] == clients && r.clients[|clients|] == r.client
    ensures EntityStore.UniqueIds(clients, Key) ==> EntityStore.UniqueIds(r.clients, Key)
  {
    var c := Client(id, data.name, data.email, data.phone, data.segment, data.value, data.address,
                    data.notes, data.productId, data.quantity, data.birthDate, data.lastPurchase,
                    now, now);
    EntityStore.AppendKeepsUnique(clients, c, Key);
    Added(clients + [c], c)
  }

  /** The caller-visible fields of a client: the record minus id and timestamps. */
  function Strip(c: Client): ClientData {
    ClientData(c.name, c.email, c.phone, c.segment, c.value, c.address, c.notes, c.productId,
               c.quantity, c.birthDate, c.lastPurchase)
  }

  /** `{...client, ...patch}` on the caller-visible fields. */
  function Patch(d: ClientData, p: ClientPatch): ClientData {
    ClientData(
      Spread(d.name, p.name), Spread(d.email, p.email), Spread(d.phone, p.phone),
      Spread(d.segment, p.segment), Spread(d.value, p.value),
      SpreadOptional(d.address, p.address), SpreadOptional(d.notes, p.notes),
      SpreadOptional(d.productId, p.productId), SpreadOptional(d.quantity, p.quantity),
      SpreadOptional(d.birthDate, p.birthDate), SpreadOptional(d.lastPurchase, p.lastPurchase))
  }

  /** `{...client, ...patch, updatedAt: now}`. */
  function Merge(c: Client, p: ClientPatch, now: Timestamp): Client {
    var d := Patch(Strip(c), p);
    Client(c.id, d.name, d.email, d.phone, d.segment, d.value, d.address, d.notes, d.productId,
           d.quantity, d.birthDate, d.lastPurchase, c.createdAt, now)
  }

  /** The merge `updateClient` applies to each matching record. */
  function Merger(p: ClientPatch, now: Timestamp): Client -> Client {
    c => Merge(c, p, now)
  }

  /** The patch that supplies no field. */
  function EmptyPatch(): ClientPatch {
    ClientPatch(None, None, None, None, None, None, None, None, None, None, None)
  }

  /** `updateClient`: every client carrying `id` takes the fields the patch
      supplies, keeps every field it leaves out, keeps its id and `createdAt`
      and gets `updatedAt = now`. Every other client is left where and as it was. */
  function UpdateClient(clients: seq<Client>, id: Id, patch: ClientPatch, now: Timestamp): (r: seq<Client>)
    ensures |r| == |clients|
    ensures forall i :: 0 <= i < |clients| && clients[i].id != id ==> r[i] == clients[i]
    ensures forall i :: 0 <= i < |clients| && clients[i].id == id ==>
      && r[i].id == id && r[i].createdAt == clients[i].createdAt && r[i].updatedAt == now
      && (patch.name.Some? ==> r[i].name == patch.name.value)
      && (patch.name.None? ==> r[i].name == clients[i].name)
      && (patch.segment.Some? ==> r[i].segment == patch.segment.value)
      && (patch.segment.None? ==> r[i].segment == clients[i].segment)
      && (patch.address.Some? ==> r[i].address == patch.address)
      && (patch.address.None? ==> r[i].address == clients[i].address)
      && Strip(r[i]) == Patch(Strip(clients[i]), patch)
    ensures EntityStore.Fresh(clients, Key, id) ==> r == clients
  {
    EntityStore.UpdateWhere(clients, Key, id, Merger(patch, now))
  }

  /** `deleteClient`: the clients not carrying `id`, in their order. */
  function DeleteClient(clients: seq<Client>, id: Id): (r: seq<Client>)
    ensures forall i :: 0 <= i < |r| ==> r[i].id != id && r[i] in clients
    ensures forall i :: 0 <= i < |clients| && clients[i].id != id ==> clients[i] in r
    ensures EntityStore.Fresh(clients, Key, id) ==> r == clients
  {
    EntityStore.RemoveId(clients, Key, id)
  }

  /** With unique ids, deleting an existing client drops exactly that record
      and keeps the others in their order. */
  lemma DeleteExistingClient(clients: seq<Client>, k: int)
    requires EntityStore.UniqueIds(clients, Key) && 0 <= k < |clients|
    ensures DeleteClient(clients, clients[k].id) == clients[..k] + clients[k + 1..]
    ensures |DeleteClient(clients, clients[k].id)| == |clients| - 1
  {
    EntityStore.RemoveUnique(clients, Key, k);
  }

  /** `getClient`: the first client carrying `id`, or nothing. */
  function GetClient(clients: seq<Client>, id: Id): (r: Option<Client>)
    ensures r.None? <==> forall i :: 0 <= i < |clients| ==> clients[i].id != id
    ensures r.Some? ==> r.value.id == id && r.value in clients
    ensures forall i :: EntityStore.IsFirstMatch(clients, Key, id, i) ==> r == Some(clients[i])
  {
    EntityStore.Find(clients, Key, id)
  }

  /** Patching with no field is the identity on the caller-visible fields, so
      an empty update only moves `updatedAt`. */
  lemma EmptyPatchOnlyTouchesUpdatedAt(clients: seq<Client>, id: Id, now: Timestamp)
    ensures var r := UpdateClient(clients, id, EmptyPatch(), now);
      forall i :: 0 <= i < |clients| ==> r[i] == clients[i].(updatedAt := if clients[i].id == id then now else clients[i].updatedAt)
  {
  }

  /** Applying the same patch twice at the same clock reading is applying it once. */
  lemma UpdateClientIdempotent(clients: seq<Client>, id: Id, patch: ClientPatch, now: Timestamp)
    ensures UpdateClient(UpdateClient(clients, id, patch, now), id, patch, now)
         == UpdateClient(clients, id, patch, now)
  {
    var once := UpdateClient(clients, id, patch, now);
    var twice := UpdateClient(once, id, patch, now);
    assert forall i :: 0 <= i < |clients| ==> twice[i] == once[i];
  }

  /** Deleting a client twice is deleting it once. */
  lemma DeleteClientIdempotent(clients: seq<Client>, id: Id)
    ensures DeleteClient(DeleteClient(clients, id), id) == DeleteClient(clients, id)
  {
    EntityStore.RemoveIdempotent(clients, Key, id);
  }

  /** Adding a client and deleting it by the returned id gives back the list. */
  lemma AddThenDeleteClient(clients: seq<Client>, data: ClientData, id: Id, now: Timestamp)
    requires EntityStore.Fresh(clients, Key, id)
    ensures var added := AddClient(clients, data, id, now);
      DeleteClient(added.clients, added.client.id) == clients
  {
    var added := AddClient(clients, data, id, now);
    EntityStore.AppendThenRemove(clients, added.client, Key);
  }

  /** The update merge never changes a record's id. */
  lemma MergerKeepsKey(patch: ClientPatch, now: Timestamp, id: Id)
    ensures EntityStore.KeepsKey(Merger(patch, now), Key, id)
  {
    forall c: Client | Key(c) == id
      ensures Key(Merger(patch, now)(c)) == id
    {
      assert Merger(patch, now)(c) == Merge(c, patch, now);
    }
  }

  /** Updates and deletes keep the ids of the list distinct. */
  lemma UpdateClientKeepsUnique(clients: seq<Client>, id: Id, patch: ClientPatch, now: Timestamp)
    requires EntityStore.UniqueIds(clients, Key)
    ensures EntityStore.UniqueIds(UpdateClient(clients, id, patch, now), Key)
  {
    MergerKeepsKey(patch, now, id);
    EntityStore.UpdateKeepsKeys(clients, Key, id, Merger(patch, now));
  }

  lemma DeleteClientKeepsUnique(clients: seq<Client>, id: Id)
    requires EntityStore.UniqueIds(clients, Key)
    ensures EntityStore.UniqueIds(DeleteClient(clients, id), Key)
  {
    EntityStore.RemoveKeepsUnique(clients, Key, id);
  }

  // ---------------------------------------------------------------------
  // Segment tally

  /** The three segments the tally reports, in order, each starting at zero. */
  function SegmentTable(): seq<SegmentCount> {
    [ SegmentCount("retail", "Varejo", 0),
      SegmentCount("wholesale", "Atacado", 0),
      SegmentCount("corporate", "Corporativo", 0) ]
  }

  predicate IsListedSegment(s: string) {
    s == "retail" || s == "wholesale" || s == "corporate"
  }

  /** The segment of every client, in list order. */
  function SegmentsOf(clients: seq<Client>): (r: seq<string>)
    ensures |r| == |clients|
    ensures forall i :: 0 <= i < |clients| ==> r[i] == clients[i].segment
  {
    seq(|clients|, i requires 0 <= i < |clients| => clients[i].segment)
  }

  /** The reference count: how many clients carry segment `s`. */
  ghost function Occurrences(clients: seq<Client>, s: string): nat {
    multiset(SegmentsOf(clients))[s]
  }

  function SegmentKey(e: SegmentCount): Id { e.id }

  /** `segments.find(s => s.id === segment)` followed by `count++` on the
      entry found: only the first entry with that id is bumped. */
  function BumpFirst(table: seq<SegmentCount>, segment: string): (r: seq<SegmentCount>)
    ensures |r| == |table|
    ensures forall k :: 0 <= k < |table| ==> r[k].id == table[k].id && r[k].name == table[k].name
    ensures forall k :: 0 <= k < |table| ==>
      r[k].count == table[k].count + (if EntityStore.IsFirstMatch(table, SegmentKey, segment, k) then 1 else 0)
  {
    if |table| == 0 then []
    else if table[0].id == segment then [table[0].(count := table[0].count + 1)] + table[1..]
    else
      var rest := BumpFirst(table[1..], segment);
      assert forall k :: 1 <= k < |table| ==>
        (EntityStore.IsFirstMatch(table, SegmentKey, segment, k) <==>
         EntityStore.IsFirstMatch(table[1..], SegmentKey, segment, k - 1));
      [table[0]] + rest
  }

  /** The `forEach` over the clients, in list order. */
  function Tally(clients: seq<Client>): (r: seq<SegmentCount>)
    ensures |r| == 3
    ensures forall k :: 0 <= k < 3 ==> r[k].id == SegmentTable()[k].id && r[k].name == SegmentTable()[k].name
    ensures forall k :: 0 <= k < 3 ==> r[k].count == Occurrences(clients, SegmentTable()[k].id)
  {
    if |clients| == 0 then SegmentTable()
    else
      var n := |clients| - 1;
      var before := Tally(clients[..n]);
      forall k | 0 <= k < 3
        ensures Occurrences(clients, SegmentTable()[k].id)
             == Occurrences(clients[..n], SegmentTable()[k].id) + (if before[k].id == clients[n].segment then 1 else 0)
      {
        OccurrencesOfLast(clients, SegmentTable()[k].id);
      }
      BumpTable(before, clients[n].segment);
      BumpFirst(before, clients[n].segment)
  }

  /** On a table carrying the three segment ids, bumping a segment adds one
      to its own entry only (the ids are distinct, so the first match is the
      only one). */
  lemma BumpTable(table: seq<SegmentCount>, segment: string)
    requires |table| == 3 && forall k :: 0 <= k < 3 ==> table[k].id == SegmentTable()[k].id
    ensures forall k :: 0 <= k < 3 ==>
      BumpFirst(table, segment)[k].count == table[k].count + (if SegmentTable()[k].id == segment then 1 else 0)
  {
    assert "retail"[0] != "wholesale"[0] && "retail"[0] != "corporate"[0] && "wholesale"[0] != "corporate"[0];
    assert forall k :: 0 <= k < 3 ==>
      (EntityStore.IsFirstMatch(table, SegmentKey, segment, k) <==> table[k].id == segment);
  }

  /** The last client adds one to the count of its own segment only. */
  lemma OccurrencesOfLast(clients: seq<Client>, s: string)
    requires |clients| > 0
    ensures Occurrences(clients, s)
         == Occurrences(clients[..|clients| - 1], s) + (if clients[|clients| - 1].segment == s then 1 else 0)
  {
    var n := |clients| - 1;
    assert SegmentsOf(clients) == SegmentsOf(clients[..n]) + [clients[n].segment];
  }

  /** `getClientSegments`: exactly three entries, retail, wholesale and
      corporate in that order, each counting the clients whose segment is
      that id. A client with any other segment is counted nowhere. */
  function GetClientSegments(clients: seq<Client>): (r: seq<SegmentCount>)
    ensures |r| == 3
    ensures r[0].id == "retail" && r[0].name == "Varejo"
    ensures r[1].id == "wholesale" && r[1].name == "Atacado"
    ensures r[2].id == "corporate" && r[2].name == "Corporativo"
    ensures forall k :: 0 <= k < 3 ==> r[k].count == Occurrences(clients, r[k].id)
  {
    Tally(clients)
  }

  /** How many clients carry a segment outside the three listed ones. */
  function CountUnlisted(clients: seq<Client>): nat {
    if |clients| == 0 then 0
    else CountUnlisted(clients[1..]) + (if IsListedSegment(clients[0].segment) then 0 else 1)
  }

  /** Every client is counted once: in its listed segment or as unlisted. */
  lemma {:induction false} OccurrencesAddUp(clients: seq<Client>)
    ensures Occurrences(clients, "retail") + Occurrences(clients, "wholesale")
          + Occurrences(clients, "corporate") + CountUnlisted(clients) == |clients|
  {
    if |clients| > 0 {
      OccurrencesAddUp(clients[1..]);
      assert SegmentsOf(clients) == [clients[0].segment] + SegmentsOf(clients[1..]);
    }
  }

  /** No client is unlisted exactly when every client's segment is listed. */
  lemma {:induction false} NoUnlisted(clients: seq<Client>)
    ensures CountUnlisted(clients) == 0 <==> forall i :: 0 <= i < |clients| ==> IsListedSegment(clients[i].segment)
  {
    if |clients| > 0 {
      NoUnlisted(clients[1..]);
      assert forall i :: 1 <= i < |clients| ==> clients[i] == clients[1..][i - 1];
    }
  }

  /** The three counts sum to at most the number of clients, and to exactly
      that number when every client's segment is one of the three ids. */
  lemma SegmentCountsSum(clients: seq<Client>)
    ensures var r := GetClientSegments(clients);
      r[0].count + r[1].count + r[2].count <= |clients|
    ensures var r := GetClientSegments(clients);
      (r[0].count + r[1].count + r[2].count == |clients|
       <==> forall i :: 0 <= i < |clients| ==> IsListedSegment(clients[i].segment))
  {
    OccurrencesAddUp(clients);
    NoUnlisted(clients);
  }

  /** The seed list tallies to retail 2, wholesale 1, corporate 2. */
  lemma DefaultSegments(now: Timestamp)
    ensures var r := GetClientSegments(DefaultClients(now));
      r[0].count == 2 && r[1].count == 1 && r[2].count == 2
  {
    var cs := DefaultClients(now);
    assert SegmentsOf(cs) == ["corporate", "retail", "wholesale", "retail", "corporate"];
  }

  /** One retail client added to an empty store is the only client, and the
      tally reports retail 1, wholesale 0, corporate 0. */
  lemma OneRetailClient(data: ClientData, id: Id, now: Timestamp)
    requires data.segment == "retail"
    ensures var added := AddClient([], data, id, now);
      var r := GetClientSegments(added.clients);
      |added.clients| == 1 && r[0].count == 1 && r[1].count == 0 && r[2].count == 0
  {
    var added := AddClient([], data, id, now);
    assert added.clients == [added.client] && added.clients[..0] == [];
    BumpTable(SegmentTable(), "retail");
    assert "retail" != "wholesale" && "retail" != "corporate" by {
      assert "retail"[0] != "wholesale"[0] && "retail"[0] != "corporate"[0];
    }
  }
}

=== FILE: common.dfy ===
/** Shared vocabulary of the dashboard's data layer: identifiers, clock values
    and an optional value standing for JavaScript's `undefined`/`null`. */
module Common {

  /** Record identifiers are strings (`crypto.randomUUID()` or the seed ids "1".."5"). */
  type Id = string

  /** A reading of the clock (`new Date()`), supplied by the caller. */
  type Timestamp = int

  /** A value that may be absent: an optional field, a missing object key or
      the `undefined` that `Array.prototype.find` returns. */
  datatype Option<+T> = None | Some(value: T) {

    /** The value, or `default` when absent. */
    function GetOr(default: T): T {
      match this
      case Some(v) => v
      case None => default
    }
  }

  /** Object spread `{...old, ...patch}` for one required field: a key the patch
      carries wins, a key it omits keeps the old value. */
  function Spread<T>(prev: T, patch: Option<T>): T {
    patch.GetOr(prev)
  }

  /** Object spread for one optional field. */
  function SpreadOptional<T>(prev: Option<T>, patch: Option<T>): Option<T> {
    if patch.Some? then patch else prev
  }
}

=== FILE: date_format.dfy ===
/** `formatDateToBrazilian` (`src/utils.ts`): a date rendered as day, month
    and year separated by slashes. */
module DateFormat {
  import opened Common
  import opened JsText

  /** What `Date.prototype.getDate()` returns for a valid date. */
  type DayOfMonth = d: int | 1 <= d <= 31 witness 1

  /** What `Date.prototype.getMonth()` returns for a valid date (January is 0). */
  type MonthIndex = m: int | 0 <= m <= 11

  /** The argument, once a string argument has gone through `new Date(...)`:
      null, undefined, a Date whose time value is NaN, or a valid Date seen
      through `getDate()`, `getMonth()` and `getFullYear()`. */
  datatype DateArg =
    | Null
    | Undefined
    | InvalidDate
    | ValidDate(date: DayOfMonth, month: MonthIndex, fullYear: int)

  /** `String(n).padStart(2, '0')` for a number below 100: two digit characters. */
  function TwoDigits(n: nat): (r: string)
    requires n < 100
    ensures |r| == 2 && IsDecimalDigit(r[0]) && IsDecimalDigit(r[1])
  {
    NatToStringLength(n);
    PadStart(NatToString(n), 2, '0')
  }

  /** `String(getDate() + 1).padStart(2, '0')`. */
  function DayPart(date: DayOfMonth): (r: string)
    ensures |r| == 2
  {
    TwoDigits(date + 1)
  }

  /** `String(getMonth() + 1).padStart(2, '0')`. */
  function MonthPart(month: MonthIndex): (r: string)
    ensures |r| == 2
  {
    TwoDigits(month + 1)
  }

  /** `formatDateToBrazilian`: "" for a missing or invalid date, otherwise the
      two-character day, a slash, the two-character month, a slash and the
      unpadded year. */
  function FormatDateToBrazilian(d: DateArg): (r: string)
    ensures !d.ValidDate? ==> r == ""
    ensures d.ValidDate? ==>
      && |r| == 6 + |IntToString(d.fullYear)|
      && r[2] == '/' && r[5] == '/'
      && r[6..] == IntToString(d.fullYear)
  {
    match d
    case ValidDate(date, month, year) =>
      var r := DayPart(date) + "/" + MonthPart(month) + "/" + IntToString(year);
      assert r[6..] == IntToString(year);
      r
    case _ => ""
  }

  /** `parseInt` reads a two-digit field back as its number. */
  lemma TwoDigitsReadBack(n: nat)
    requires n < 100
    ensures ParseInt(TwoDigits(n)) == Some(n)
  {
    ParseIntOfPadded(n, 2);
  }

  /** The output is made of its three fields and two slashes. */
  lemma FormatFields(d: DateArg)
    requires d.ValidDate?
    ensures var r := FormatDateToBrazilian(d);
      r[..2] == DayPart(d.date) && r[3..5] == MonthPart(d.month) && r[6..] == IntToString(d.fullYear)
  {
    var a, b, c := DayPart(d.date), MonthPart(d.month), IntToString(d.fullYear);
    var r := a + "/" + b + "/" + c;
    assert r[..2] == a && r[3..5] == b;
  }

  /** Reading the output back: the day field parses as `getDate() + 1`, the
      month field as `getMonth() + 1` and the rest as the full year. */
  lemma FormatReadsBack(d: DateArg)
    requires d.ValidDate?
    ensures var r := FormatDateToBrazilian(d);
      && ParseInt(r[..2]) == Some(d.date + 1)
      && ParseInt(r[3..5]) == Some(d.month + 1)
      && ParseInt(r[6..]) == Some(d.fullYear)
  {
    FormatFields(d);
    TwoDigitsReadBack(d.date + 1);
    TwoDigitsReadBack(d.month + 1);
    ParseIntOfIntToString(d.fullYear, "");
    assert IntToString(d.fullYear) + "" == IntToString(d.fullYear);
  }

  /** The month field always lies between "01" and "12". */
  lemma MonthFieldInRange(d: DateArg)
    requires d.ValidDate?
    ensures var r := FormatDateToBrazilian(d);
      || (r[3] == '0' && '1' <= r[4] <= '9')
      || (r[3] == '1' && '0' <= r[4] <= '2')
  {
    FormatFields(d);
    var m := d.month + 1;
    NatToStringLength(m);
    if m >= 10 {
      assert NatToString(m) == NatToString(m / 10) + [DigitChar(m % 10)];
      assert NatToString(m / 10) == [DigitChar(1)];
    }
  }

  /** The day field is `getDate() + 1`, so any date whose `getDate()` is 31
      renders as "32". `ValidDate` does not check the month's length, so the
      real inputs are the 31sts of the months that have one. */
  lemma ThirtyFirstRendersAs32(month: MonthIndex, year: int)
    ensures FormatDateToBrazilian(ValidDate(31, month, year))[..2] == "32"
  {
    FormatFields(ValidDate(31, month, year));
    assert NatToString(32) == NatToString(3) + [DigitChar(2)] == "32";
    assert DayPart(31) == PadStart("32", 2, '0') == "32";
  }

  /** A year of four digits gives the ten characters of "dd/mm/yyyy". */
  lemma FourDigitYearIsTenCharacters(d: DateArg)
    requires d.ValidDate? && 1000 <= d.fullYear <= 9999
    ensures |FormatDateToBrazilian(d)| == 10
  {
    var y := d.fullYear;
    assert NatToString(y) == NatToString(y / 10) + [DigitChar(y % 10)];
    assert NatToString(y / 10) == NatToString(y / 100) + [DigitChar(y / 10 % 10)];
    assert |NatToString(y / 100)| == 2;
  }

  /** The formatter as evidently intended: the day field is `getDate()`
      itself, so every valid date renders with a day of its month. */
  function FormatDateCorrected(d: DateArg): (r: string)
    ensures !d.ValidDate? ==> r == ""
    ensures d.ValidDate? ==>
      && |r| == 6 + |IntToString(d.fullYear)|
      && r[2] == '/' && r[5] == '/'
      && r[6..] == IntToString(d.fullYear)
  {
    match d
    case ValidDate(date, month, year) =>
      var r := TwoDigits(date) + "/" + MonthPart(month) + "/" + IntToString(year);
      assert r[6..] == IntToString(year);
      r
    case _ => ""
  }

  /** The corrected output is made of its three fields and two slashes. */
  lemma CorrectedFields(d: DateArg)
    requires d.ValidDate?
    ensures var r := FormatDateCorrected(d);
      r[..2] == TwoDigits(d.date) && r[3..5] == MonthPart(d.month) && r[6..] == IntToString(d.fullYear)
  {
    var a, b, c := TwoDigits(d.date), MonthPart(d.month), IntToString(d.fullYear);
    var r := a + "/" + b + "/" + c;
    assert r[..2] == a && r[3..5] == b;
  }

  /** The corrected output reads back as the date's own day, month and
      year; in particular its day field always lies between 1 and 31. */
  lemma CorrectedReadsBack(d: DateArg)
    requires d.ValidDate?
    ensures var r := FormatDateCorrected(d);
      && ParseInt(r[..2]) == Some(d.date)
      && ParseInt(r[3..5]) == Some(d.month + 1)
      && ParseInt(r[6..]) == Some(d.fullYear)
  {
    CorrectedFields(d);
    TwoDigitsReadBack(d.date);
    TwoDigitsReadBack(d.month + 1);
    ParseIntOfIntToString(d.fullYear, "");
    assert IntToString(d.fullYear) + "" == IntToString(d.fullYear);
  }
}

=== FILE: entity_store.dfy ===
/** The list operations every entity store of the dashboard is built from:
    the `map` of an update, the `filter` of a delete and the `find` of a get,
    over a list of records that each carry an identifier reached through `key`. */
module EntityStore {
  import opened Common

  /** No record of `xs` carries `id`. */
  predicate Fresh<T>(xs: seq<T>, key: T -> Id, id: Id) {
    forall i :: 0 <= i < |xs| ==> key(xs[i]) != id
  }

  /** No identifier occurs twice in `xs`. */
  predicate UniqueIds<T>(xs: seq<T>, key: T -> Id) {
    forall i, j :: 0 <= i < j < |xs| ==> key(xs[i]) != key(xs[j])
  }

  /** `i` is the position of the first record of `xs` carrying `id`. */
  predicate IsFirstMatch<T>(xs: seq<T>, key: T -> Id, id: Id, i: int) {
    && 0 <= i < |xs|
    && key(xs[i]) == id
    && forall j :: 0 <= j < i ==> key(xs[j]) != id
  }

  /** A record transformation that never moves a record carrying `id` away from it. */
  ghost predicate KeepsKey<T(!new)>(merge: T -> T, key: T -> Id, id: Id) {
    forall x :: key(x) == id ==> key(merge(x)) == id
  }

  /** The position of the first record at or after `from` carrying `id`, or
      `|xs|` when there is none. */
  function FirstIndex<T>(xs: seq<T>, key: T -> Id, id: Id, from: nat): (k: nat)
    requires from <= |xs|
    ensures from <= k <= |xs|
    ensures forall j :: from <= j < k ==> key(xs[j]) != id
    ensures k < |xs| ==> key(xs[k]) == id
    decreases |xs| - from
  {
    if from == |xs| then from
    else if key(xs[from]) == id then from
    else FirstIndex(xs, key, id, from + 1)
  }

  /** `xs.find(x => x.id === id)`: the first record carrying `id`, if any. */
  function Find<T>(xs: seq<T>, key: T -> Id, id: Id): (r: Option<T>)
    ensures r.None? <==> Fresh(xs, key, id)
    ensures r.Some? ==> key(r.value) == id && r.value in xs
    ensures forall i :: IsFirstMatch(xs, key, id, i) ==> r == Some(xs[i])
  {
    var k := FirstIndex(xs, key, id, 0);
    assert k < |xs| ==> IsFirstMatch(xs, key, id, k);
    if k < |xs| then Some(xs[k]) else None
  }

  /** `xs.map(x => x.id === id ? merge(x) : x)`: every record carrying `id` is
      merged, every other record is kept where it is. */
  function UpdateWhere<T>(xs: seq<T>, key: T -> Id, id: Id, merge: T -> T): (r: seq<T>)
    ensures |r| == |xs|
    ensures forall i :: 0 <= i < |xs| && key(xs[i]) != id ==> r[i] == xs[i]
    ensures forall i :: 0 <= i < |xs| && key(xs[i]) == id ==> r[i] == merge(xs[i])
    ensures Fresh(xs, key, id) ==> r == xs
  {
    seq(|xs|, i requires 0 <= i < |xs| => if key(xs[i]) == id then merge(xs[i]) else xs[i])
  }

  /** `xs.filter(x => x.id !== id)`: the records not carrying `id`, in their order. */
  function RemoveId<T>(xs: seq<T>, key: T -> Id, id: Id): (r: seq<T>)
    ensures Fresh(r, key, id)
    ensures forall i :: 0 <= i < |r| ==> r[i] in xs
    ensures forall i :: 0 <= i < |xs| && key(xs[i]) != id ==> xs[i] in r
    ensures |r| <= |xs|
    ensures !Fresh(xs, key, id) ==> |r| < |xs|
    ensures Fresh(xs, key, id) ==> r == xs
  {
    if |xs| == 0 then []
    else if key(xs[0]) == id then RemoveId(xs[1..], key, id)
    else [xs[0]] + RemoveId(xs[1..], key, id)
  }

  /** Some record carries `id` exactly when a first one does. */
  lemma FirstMatchExists<T>(xs: seq<T>, key: T -> Id, id: Id)
    requires !Fresh(xs, key, id)
    ensures exists i :: IsFirstMatch(xs, key, id, i)
  {
    assert IsFirstMatch(xs, key, id, FirstIndex(xs, key, id, 0));
  }

  /** Appending a record whose identifier is fresh keeps identifiers unique. */
  lemma AppendKeepsUnique<T>(xs: seq<T>, rec: T, key: T -> Id)
    requires Fresh(xs, key, key(rec))
    ensures UniqueIds(xs, key) ==> UniqueIds(xs + [rec], key)
  {
  }

  /** An update whose merge keeps the identifier keeps every record's identifier,
      so it keeps identifiers unique. */
  lemma UpdateKeepsKeys<T(!new)>(xs: seq<T>, key: T -> Id, id: Id, merge: T -> T)
    requires KeepsKey(merge, key, id)
    ensures forall i :: 0 <= i < |xs| ==> key(UpdateWhere(xs, key, id, merge)[i]) == key(xs[i])
    ensures UniqueIds(xs, key) ==> UniqueIds(UpdateWhere(xs, key, id, merge), key)
  {
    var ys := UpdateWhere(xs, key, id, merge);
    assert forall i :: 0 <= i < |xs| ==> key(ys[i]) == key(xs[i]);
  }

  /** A delete keeps identifiers unique. */
  lemma {:induction false} RemoveKeepsUnique<T>(xs: seq<T>, key: T -> Id, id: Id)
    requires UniqueIds(xs, key)
    ensures UniqueIds(RemoveId(xs, key, id), key)
  {
    if |xs| > 0 {
      RemoveKeepsUnique(xs[1..], key, id);
      var rest := RemoveId(xs[1..], key, id);
      forall i | 0 <= i < |rest|
        ensures key(rest[i]) != key(xs[0])
      {
        var j :| 0 <= j < |xs[1..]| && xs[1..][j] == rest[i];
        assert xs[j + 1] == rest[i];
      }
    }
  }

  /** The filter of a delete distributes over concatenation: it keeps the
      surviving records in their original order. */
  lemma {:induction false} RemoveIdConcat<T>(a: seq<T>, b: seq<T>, key: T -> Id, id: Id)
    ensures RemoveId(a + b, key, id) == RemoveId(a, key, id) + RemoveId(b, key, id)
  {
    if |a| == 0 {
      assert a + b == b;
    } else {
      assert (a + b)[1..] == a[1..] + b;
      RemoveIdConcat(a[1..], b, key, id);
    }
  }

  /** Deleting twice is deleting once. */
  lemma RemoveIdempotent<T>(xs: seq<T>, key: T -> Id, id: Id)
    ensures RemoveId(RemoveId(xs, key, id), key, id) == RemoveId(xs, key, id)
  {
  }

  /** Appending a record with a fresh identifier and then deleting that
      identifier gives back the original list. */
  lemma AppendThenRemove<T>(xs: seq<T>, rec: T, key: T -> Id)
    requires Fresh(xs, key, key(rec))
    ensures RemoveId(xs + [rec], key, key(rec)) == xs
  {
    RemoveIdConcat(xs, [rec], key, key(rec));
  }

  /** With unique identifiers, deleting the identifier of the record at `k`
      drops exactly that record and keeps the rest in order. */
  lemma RemoveUnique<T>(xs: seq<T>, key: T -> Id, k: int)
    requires UniqueIds(xs, key) && 0 <= k < |xs|
    ensures RemoveId(xs, key, key(xs[k])) == xs[..k] + xs[k + 1..]
    ensures |RemoveId(xs, key, key(xs[k]))| == |xs| - 1
  {
    var id := key(xs[k]);
    assert xs == xs[..k] + ([xs[k]] + xs[k + 1..]);
    RemoveIdConcat(xs[..k], [xs[k]] + xs[k + 1..], key, id);
    RemoveIdConcat([xs[k]], xs[k + 1..], key, id);
    assert Fresh(xs[..k], key, id) && Fresh(xs[k + 1..], key, id);
  }

  /** With unique identifiers, updating the identifier of the record at `k`
      replaces that one record by its merge. */
  lemma UpdateUnique<T>(xs: seq<T>, key: T -> Id, k: int, merge: T -> T)
    requires UniqueIds(xs, key) && 0 <= k < |xs|
    ensures UpdateWhere(xs, key, key(xs[k]), merge) == xs[k := merge(xs[k])]
  {
  }

  /** A record appended under a fresh identifier is what a get of that identifier finds. */
  lemma FindAppended<T>(xs: seq<T>, rec: T, key: T -> Id)
    requires Fresh(xs, key, key(rec))
    ensures Find(xs + [rec], key, key(rec)) == Some(rec)
  {
    assert IsFirstMatch(xs + [rec], key, key(rec), |xs|);
  }

  /** With unique identifiers, a get finds the one record carrying the identifier. */
  lemma FindUnique<T>(xs: seq<T>, key: T -> Id, k: int)
    requires UniqueIds(xs, key) && 0 <= k < |xs|
    ensures Find(xs, key, key(xs[k])) == Some(xs[k])
  {
    assert IsFirstMatch(xs, key, key(xs[k]), k);
  }

  /** After an update of `id`, a get of `id` finds the merge of what it found
      before, and a get of any other identifier finds what it found before. */
  lemma FindAfterUpdate<T(!new)>(xs: seq<T>, key: T -> Id, id: Id, merge: T -> T, other: Id)
    requires KeepsKey(merge, key, id)
    ensures other == id ==>
      Find(UpdateWhere(xs, key, id, merge), key, other) ==
        (if Find(xs, key, id).Some? then Some(merge(Find(xs, key, id).value)) else None)
    ensures other != id ==>
      Find(UpdateWhere(xs, key, id, merge), key, other) == Find(xs, key, other)
  {
    var ys := UpdateWhere(xs, key, id, merge);
    UpdateKeepsKeys(xs, key, id, merge);
    if !Fresh(xs, key, other) {
      FirstMatchExists(xs, key, other);
      var i :| IsFirstMatch(xs, key, other, i);
      assert IsFirstMatch(ys, key, other, i);
    } else {
      assert Fresh(ys, key, other);
    }
  }
}

=== FILE: js_text.dfy ===
/** The JavaScript text primitives the dashboard's logic relies on:
    `String(n)` for integers, `padStart` with a one-character filler and
    `parseInt` without a radix argument (section 19.2.5 of ECMA-262). */
module JsText {
  import opened Common

  predicate IsDecimalDigit(c: char) {
    '0' <= c <= '9'
  }

  /** The character of a decimal digit. */
  function DigitChar(d: nat): (c: char)
    requires d < 10
    ensures IsDecimalDigit(c) && c as int - '0' as int == d
  {
    ('0' as int + d) as char
  }

  /** `String(n)` for a natural number: its decimal digits, most significant
      first, with no leading zero. */
  function NatToString(n: nat): (r: string)
    ensures |r| >= 1
    ensures forall i :: 0 <= i < |r| ==> IsDecimalDigit(r[i])
    ensures |r| > 1 ==> r[0] != '0'
  {
    if n < 10 then [DigitChar(n)] else NatToString(n / 10) + [DigitChar(n % 10)]
  }

  /** `String(n)` has one digit below 10 and two digits from 10 to 99. */
  lemma {:induction false} NatToStringLength(n: nat)
    ensures n < 10 <==> |NatToString(n)| == 1
    ensures 10 <= n < 100 <==> |NatToString(n)| == 2
  {
    if n >= 10 {
      NatToStringLength(n / 10);
    }
  }

  /** `String(n)` for an integer: a minus sign exactly when `n` is negative,
      followed by a non-empty run of decimal digits worth the magnitude of `n`. */
  function IntToString(n: int): (r: string)
    ensures |r| >= 1 && (r[0] == '-' <==> n < 0)
    ensures var digits := if n < 0 then r[1..] else r;
      && |digits| >= 1
      && (forall i :: 0 <= i < |digits| ==> IsRadixDigit(digits[i], 10))
      && DigitsValue(digits, 10) == (if n < 0 then -n else n)
  {
    var m: nat := if n < 0 then -n else n;
    DigitsValueOfNatToString(m);
    var digits := NatToString(m);
    if n < 0 then
      assert ("-" + digits)[1..] == digits;
      "-" + digits
    else
      digits
  }

  /** `s.padStart(width, fill)` with a one-character `fill`: `s` when it is
      already `width` long, otherwise `s` with enough copies of `fill` in front. */
  function PadStart(s: string, width: nat, fill: char): (r: string)
    ensures |s| >= width ==> r == s
    ensures |s| < width ==> |r| == width
    ensures |r| >= |s| && r[|r| - |s|..] == s
    ensures forall i :: 0 <= i < |r| - |s| ==> r[i] == fill
  {
    if |s| >= width then s
    else
      var padding := seq(width - |s|, _ => fill);
      assert (padding + s)[|padding|..] == s;
      padding + s
  }

  /** StrWhiteSpaceChar: the white space and line terminators `parseInt` skips. */
  predicate IsJsWhiteSpace(c: char) {
    var n := c as int;
    || n == 0x09 || n == 0x0B || n == 0x0C || n == 0xFEFF      // TAB, VT, FF, ZWNBSP
    || n == 0x20 || n == 0xA0 || n == 0x1680 || (0x2000 <= n <= 0x200A)
    || n == 0x202F || n == 0x205F || n == 0x3000              // space separators (Zs)
    || n == 0x0A || n == 0x0D || n == 0x2028 || n == 0x2029   // line terminators
  }

  /** `s` without its leading white space. */
  function TrimStart(s: string): (r: string)
    ensures |r| <= |s| && r == s[|s| - |r|..]
    ensures |r| > 0 ==> !IsJsWhiteSpace(r[0])
  {
    if |s| > 0 && IsJsWhiteSpace(s[0]) then TrimStart(s[1..]) else s
  }

  /** The value of a digit in radix 36 (`0`-`9`, then `a`-`z` or `A`-`Z`). */
  function DigitValue(c: char): (r: Option<nat>)
    ensures IsDecimalDigit(c) ==> r == Some(c as int - '0' as int)
    ensures r.Some? && r.value < 10 ==> IsDecimalDigit(c)
  {
    if '0' <= c <= '9' then Some(c as int - '0' as int)
    else if 'a' <= c <= 'z' then Some(c as int - 'a' as int + 10)
    else if 'A' <= c <= 'Z' then Some(c as int - 'A' as int + 10)
    else None
  }

  predicate IsRadixDigit(c: char, radix: nat) {
    DigitValue(c).Some? && DigitValue(c).value < radix
  }

  /** The length of the longest prefix of `s` made of digits in `radix`. */
  function DigitRun(s: string, radix: nat): (k: nat)
    ensures k <= |s|
    ensures forall i :: 0 <= i < k ==> IsRadixDigit(s[i], radix)
    ensures k < |s| ==> !IsRadixDigit(s[k], radix)
  {
    if |s| == 0 || !IsRadixDigit(s[0], radix) then 0 else 1 + DigitRun(s[1..], radix)
  }

  /** The value of a string of digits in `radix`, most significant first. */
  function DigitsValue(s: string, radix: nat): int
    requires forall i :: 0 <= i < |s| ==> IsRadixDigit(s[i], radix)
  {
    if |s| == 0 then 0
    else
      var last := s[|s| - 1];
      assert IsRadixDigit(last, radix);
      DigitsValue(s[..|s| - 1], radix) * radix + DigitValue(last).value
  }

  /** `parseInt(s)`: skip leading white space, take an optional sign, switch to
      radix 16 after a `0x`/`0X` prefix, then read the longest run of digits;
      `None` stands for NaN, the result when that run is empty. */
  function ParseInt(s: string): (r: Option<int>)
    ensures r.Some? ==> |TrimStart(s)| > 0
    ensures (|TrimStart(s)| > 0 && !IsDecimalDigit(TrimStart(s)[0])
             && TrimStart(s)[0] != '-' && TrimStart(s)[0] != '+') ==> r.None?
  {
    ParseSigned(TrimStart(s))
  }

  /** The sign step of `parseInt`. */
  function ParseSigned(t: string): (r: Option<int>)
    ensures r.Some? ==> |t| > 0
    ensures (|t| > 0 && !IsDecimalDigit(t[0]) && t[0] != '-' && t[0] != '+') ==> r.None?
  {
    if |t| > 0 && t[0] == '-' then WithSign(-1, ParseUnsigned(t[1..]))
    else if |t| > 0 && t[0] == '+' then WithSign(1, ParseUnsigned(t[1..]))
    else WithSign(1, ParseUnsigned(t))
  }

  function WithSign(sign: int, magnitude: Option<int>): (r: Option<int>)
    ensures r.None? <==> magnitude.None?
  {
    match magnitude
    case None => None
    case Some(v) => Some(sign * v)
  }

  /** `u` starts with a hexadecimal prefix. */
  predicate HasHexPrefix(u: string) {
    |u| >= 2 && u[0] == '0' && (u[1] == 'x' || u[1] == 'X')
  }

  /** The radix step of `parseInt`: radix 16 after `0x`/`0X`, else radix 10. */
  function ParseUnsigned(u: string): (r: Option<int>)
    ensures r.Some? ==> |u| > 0 && IsDecimalDigit(u[0])
  {
    if HasHexPrefix(u) then ParseDigits(u[2..], 16) else ParseDigits(u, 10)
  }

  /** The longest run of digits at the front of `v`, read in `radix`. */
  function ParseDigits(v: string, radix: nat): (r: Option<int>)
    ensures r.None? <==> DigitRun(v, radix) == 0
  {
    var k := DigitRun(v, radix);
    if k == 0 then None else Some(DigitsValue(v[..k], radix))
  }

  /** The digit run of `digits + rest` stops where `digits` ends when `rest`
      does not continue it. */
  lemma {:induction false} DigitRunOfConcat(digits: string, rest: string, radix: nat)
    requires forall i :: 0 <= i < |digits| ==> IsRadixDigit(digits[i], radix)
    requires |rest| == 0 || !IsRadixDigit(rest[0], radix)
    ensures DigitRun(digits + rest, radix) == |digits|
  {
    if |digits| > 0 {
      assert (digits + rest)[1..] == digits[1..] + rest;
      DigitRunOfConcat(digits[1..], rest, radix);
    } else {
      assert digits + rest == rest;
    }
  }

  /** Decimal digits followed by a non-digit read as the digits' value. */
  lemma ParseDecimalPrefix(digits: string, rest: string)
    requires |digits| > 0
    requires forall i :: 0 <= i < |digits| ==> IsRadixDigit(digits[i], 10)
    requires |rest| == 0 || !IsRadixDigit(rest[0], 10)
    requires !HasHexPrefix(digits + rest)
    ensures ParseUnsigned(digits + rest) == Some(DigitsValue(digits, 10))
  {
    DigitRunOfConcat(digits, rest, 10);
    assert (digits + rest)[..|digits|] == digits;
  }

  /** Reading back the digits `String(n)` writes gives `n`. */
  lemma {:induction false} DigitsValueOfNatToString(n: nat)
    ensures forall i :: 0 <= i < |NatToString(n)| ==> IsRadixDigit(NatToString(n)[i], 10)
    ensures DigitsValue(NatToString(n), 10) == n
  {
    var s := NatToString(n);
    if n >= 10 {
      DigitsValueOfNatToString(n / 10);
      assert s[..|s| - 1] == NatToString(n / 10);
    }
  }

  /** A run of zero digits in front of a number does not change its value. */
  lemma {:induction false} DigitsValueLeadingZeros(zeros: string, s: string)
    requires forall i :: 0 <= i < |zeros| ==> zeros[i] == '0'
    requires forall i :: 0 <= i < |s| ==> IsRadixDigit(s[i], 10)
    ensures forall i :: 0 <= i < |zeros + s| ==> IsRadixDigit((zeros + s)[i], 10)
    ensures DigitsValue(zeros + s, 10) == DigitsValue(s, 10)
  {
    if |s| == 0 {
      assert zeros + s == zeros;
      AllZerosValue(zeros);
    } else {
      assert (zeros + s)[..|zeros + s| - 1] == zeros + s[..|s| - 1];
      DigitsValueLeadingZeros(zeros, s[..|s| - 1]);
    }
  }

  /** A string of zeros is worth zero. */
  lemma {:induction false} AllZerosValue(zeros: string)
    requires forall i :: 0 <= i < |zeros| ==> zeros[i] == '0'
    ensures forall i :: 0 <= i < |zeros| ==> IsRadixDigit(zeros[i], 10)
    ensures DigitsValue(zeros, 10) == 0
  {
    if |zeros| > 0 {
      AllZerosValue(zeros[..|zeros| - 1]);
    }
  }

  /** The sign step on text starting with a digit reads it unsigned. */
  lemma SignedDigit(t: string)
    requires |t| > 0 && IsDecimalDigit(t[0])
    ensures ParseSigned(t) == WithSign(1, ParseUnsigned(t))
  {
  }

  /** The sign step on text starting with '-' negates what follows. */
  lemma SignedMinus(t: string)
    requires |t| > 0 && t[0] == '-'
    ensures ParseSigned(t) == WithSign(-1, ParseUnsigned(t[1..]))
  {
  }

  /** Text that does not start with white space is left alone by `TrimStart`. */
  lemma TrimStartNoSpace(s: string)
    requires |s| > 0 && (IsDecimalDigit(s[0]) || s[0] == '-')
    ensures TrimStart(s) == s
  {
    assert !IsJsWhiteSpace(s[0]);
  }

  /** `parseInt` of text that starts with a digit is its unsigned reading. */
  lemma ParseIntUnsigned(u: string, v: int)
    requires |u| > 0 && IsDecimalDigit(u[0]) && ParseUnsigned(u) == Some(v)
    ensures ParseInt(u) == Some(v)
  {
    TrimStartNoSpace(u);
    SignedDigit(u);
  }

  /** `parseInt` of a minus sign before such text is the negated reading. */
  lemma ParseIntNegated(u: string, v: int)
    requires |u| > 0 && IsDecimalDigit(u[0]) && ParseUnsigned(u) == Some(v)
    ensures ParseInt("-" + u) == Some(-v)
  {
    var neg := "-" + u;
    assert neg[1..] == u;
    TrimStartNoSpace(neg);
    SignedMinus(neg);
  }

  /** `parseInt` reads `String(n)` back as `n`, ignoring whatever follows the
      digits, unless what follows is a digit or would turn a leading "0" into
      a hexadecimal prefix. */
  lemma ParseIntOfIntToString(n: int, rest: string)
    requires |rest| == 0 || !(IsDecimalDigit(rest[0]) || rest[0] == 'x' || rest[0] == 'X')
    ensures ParseInt(IntToString(n) + rest) == Some(n)
  {
    var m: nat := if n < 0 then -n else n;
    var digits := NatToString(m);
    var u := digits + rest;
    DigitsValueOfNatToString(m);
    assert |rest| > 0 ==> !IsRadixDigit(rest[0], 10);
    assert !HasHexPrefix(u) by {
      if |digits| == 1 && |rest| > 0 { assert u[1] == rest[0]; }
    }
    ParseDecimalPrefix(digits, rest);
    assert u[0] == digits[0];
    if n < 0 {
      assert IntToString(n) == "-" + digits;
      assert IntToString(n) + rest == "-" + u;
      ParseIntNegated(u, m);
    } else {
      assert IntToString(n) == digits;
      assert IntToString(n) + rest == u;
      ParseIntUnsigned(u, m);
    }
  }

  /** A zero-padded `String(n)` is a non-empty run of decimal digits worth `n`. */
  lemma PaddedDigits(n: nat, width: nat)
    ensures var p := PadStart(NatToString(n), width, '0');
      && |p| > 0
      && (forall i :: 0 <= i < |p| ==> IsDecimalDigit(p[i]) && IsRadixDigit(p[i], 10))
      && DigitsValue(p, 10) == n
  {
    var digits := NatToString(n);
    var p := PadStart(digits, width, '0');
    var k := |p| - |digits|;
    var zeros := p[..k];
    assert p[k..] == digits;
    assert p == zeros + digits;
    assert forall i :: 0 <= i < |zeros| ==> zeros[i] == '0';
    DigitsValueOfNatToString(n);
    DigitsValueLeadingZeros(zeros, digits);
  }

  /** `parseInt` reads a non-empty run of decimal digits as its value. */
  lemma ParseIntOfDigitRun(p: string)
    requires |p| > 0
    requires forall i :: 0 <= i < |p| ==> IsDecimalDigit(p[i]) && IsRadixDigit(p[i], 10)
    ensures ParseInt(p) == Some(DigitsValue(p, 10))
  {
    assert p + "" == p;
    assert !HasHexPrefix(p) by {
      if |p| >= 2 { assert IsDecimalDigit(p[1]); }
    }
    ParseDecimalPrefix(p, "");
    ParseIntUnsigned(p, DigitsValue(p, 10));
  }

  /** `parseInt` reads a zero-padded `String(n)` back as `n`. */
  lemma ParseIntOfPadded(n: nat, width: nat)
    ensures ParseInt(PadStart(NatToString(n), width, '0')) == Some(n)
  {
    PaddedDigits(n, width);
    ParseIntOfDigitRun(PadStart(NatToString(n), width, '0'));
  }
}

=== FILE: products.dfy ===
/** The product store (`useProductStore`): an ordered list of products that
    starts empty. */
module Products {
  import opened Common
  import EntityStore

  datatype Product = Product(
    id: Id,
    name: string,
    price: string,        // decimal text, never parsed by the store
    description: string,
    stock: int,
    createdAt: Option<Timestamp>,
    updatedAt: Option<Timestamp>)

  /** `Omit<Product, 'id'>`, the argument of add and update. Its `createdAt`
      is optional; its `updatedAt` is always overwritten by the store, so it
      is not carried here. */
  datatype ProductData = ProductData(
    name: string,
    price: string,
    description: string,
    stock: int,
    createdAt: Option<Timestamp>)

  /** A new list together with the record `addProduct` returns. */
  datatype Added = Added(products: seq<Product>, product: Product)

  function Key(p: Product): Id { p.id }

  /** The value the store holds before anything was persisted. */
  function InitialProducts(): (r: seq<Product>)
    ensures |r| == 0
  {
    []
  }

  /** `addProduct`: a record with the fresh id and both timestamps set to
      `now`, appended after every existing product. The source reads the
      clock twice; the single reading `now` stands for both. */
  function AddProduct(products: seq<Product>, data: ProductData, id: Id, now: Timestamp): (r: Added)
    requires EntityStore.Fresh(products, Key, id)
    ensures r.product.id == id
    ensures r.product.name == data.name && r.product.price == data.price
    ensures r.product.description == data.description && r.product.stock == data.stock
    ensures r.product.createdAt == Some(now) && r.product.updatedAt == Some(now)
    ensures |r.products| == |products| + 1
    ensures r.products[..|products|] == products && r.products[|products|] == r.product
    ensures EntityStore.UniqueIds(products, Key) ==> EntityStore.UniqueIds(r.products, Key)
  {
    var p := Product(id, data.name, data.price, data.description, data.stock, Some(now), Some(now));
    EntityStore.AppendKeepsUnique(products, p, Key);
    Added(products + [p], p)
  }

  /** `{...product, ...data, updatedAt: now}`. */
  function Merge(p: Product, data: ProductData, now: Timestamp): Product {
    p.(name := data.name, price := data.price, description := data.description, stock := data.stock,
       createdAt := SpreadOptional(p.createdAt, data.createdAt), updatedAt := Some(now))
  }

  /** The merge `updateProduct` applies to each matching record. */
  function Merger(data: ProductData, now: Timestamp): Product -> Product {
    p => Merge(p, data, now)
  }

  /** `updateProduct`: every product carrying `id` takes the supplied fields
      and `updatedAt = now`; its id is kept and so is its `createdAt` unless
      one is supplied. Every other product is left where and as it was. */
  function UpdateProduct(products: seq<Product>, id: Id, data: ProductData, now: Timestamp): (r: seq<Product>)
    ensures |r| == |products|
    ensures forall i :: 0 <= i < |products| && products[i].id != id ==> r[i] == products[i]
    ensures forall i :: 0 <= i < |products| && products[i].id == id ==>
      && r[i].id == id
      && r[i].name == data.name && r[i].price == data.price
      && r[i].description == data.description && r[i].stock == data.stock
      && r[i].createdAt == (if data.createdAt.Some? then data.createdAt else products[i].createdAt)
      && r[i].updatedAt == Some(now)
    ensures EntityStore.Fresh(products, Key, id) ==> r == products
  {
    EntityStore.UpdateWhere(products, Key, id, Merger(data, now))
  }

  /** `deleteProduct`: the products not carrying `id`, in their order. */
  function DeleteProduct(products: seq<Product>, id: Id): (r: seq<Product>)
    ensures forall i :: 0 <= i < |r| ==> r[i].id != id && r[i] in products
    ensures forall i :: 0 <= i < |products| && products[i].id != id ==> products[i] in r
    ensures EntityStore.Fresh(products, Key, id) ==> r == products
  {
    EntityStore.RemoveId(products, Key, id)
  }

  /** `getProduct`: the first product carrying `id`, or nothing. */
  function GetProduct(products: seq<Product>, id: Id): (r: Option<Product>)
    ensures r.None? <==> forall i :: 0 <= i < |products| ==> products[i].id != id
    ensures r.Some? ==> r.value.id == id && r.value in products
    ensures forall i :: EntityStore.IsFirstMatch(products, Key, id, i) ==> r == Some(products[i])
  {
    EntityStore.Find(products, Key, id)
  }

  /** Deleting a product twice is deleting it once. */
  lemma DeleteProductIdempotent(products: seq<Product>, id: Id)
    ensures DeleteProduct(DeleteProduct(products, id), id) == DeleteProduct(products, id)
  {
    EntityStore.RemoveIdempotent(products, Key, id);
  }

  /** Adding a product and deleting it by the returned id gives back the list. */
  lemma AddThenDeleteProduct(products: seq<Product>, data: ProductData, id: Id, now: Timestamp)
    requires EntityStore.Fresh(products, Key, id)
    ensures var added := AddProduct(products, data, id, now);
      DeleteProduct(added.products, added.product.id) == products
  {
    var added := AddProduct(products, data, id, now);
    EntityStore.AppendThenRemove(products, added.product, Key);
  }

  /** The product `addProduct` returns is what a get of its id finds. */
  lemma GetAddedProduct(products: seq<Product>, data: ProductData, id: Id, now: Timestamp)
    requires EntityStore.Fresh(products, Key, id)
    ensures var added := AddProduct(products, data, id, now);
      GetProduct(added.products, id) == Some(added.product)
  {
    EntityStore.FindAppended(products, AddProduct(products, data, id, now).product, Key);
  }

  /** With unique ids, deleting an existing product drops exactly that one
      record: the list is one shorter and otherwise in the same order. */
  lemma DeleteExistingProduct(products: seq<Product>, k: int)
    requires EntityStore.UniqueIds(products, Key) && 0 <= k < |products|
    ensures DeleteProduct(products, products[k].id) == products[..k] + products[k + 1..]
    ensures |DeleteProduct(products, products[k].id)| == |products| - 1
  {
    EntityStore.RemoveUnique(products, Key, k);
  }

  /** The update merge never changes a record's id. */
  lemma MergerKeepsKey(data: ProductData, now: Timestamp, id: Id)
    ensures EntityStore.KeepsKey(Merger(data, now), Key, id)
  {
    forall p: Product | Key(p) == id
      ensures Key(Merger(data, now)(p)) == id
    {
      assert Merger(data, now)(p) == Merge(p, data, now);
    }
  }

  /** After `updateProduct(id, ...)` a get of `id` finds the merge of what it
      found before (or still nothing), and a get of any other id finds what
      it found before. */
  lemma GetAfterUpdate(products: seq<Product>, id: Id, data: ProductData, now: Timestamp)
    ensures GetProduct(UpdateProduct(products, id, data, now), id) ==
      (if GetProduct(products, id).Some? then Some(Merge(GetProduct(products, id).value, data, now)) else None)
    ensures forall other :: other != id ==>
      GetProduct(UpdateProduct(products, id, data, now), other) == GetProduct(products, other)
  {
    MergerKeepsKey(data, now, id);
    EntityStore.FindAfterUpdate(products, Key, id, Merger(data, now), id);
    forall other | other != id
      ensures GetProduct(UpdateProduct(products, id, data, now), other) == GetProduct(products, other)
    {
      EntityStore.FindAfterUpdate(products, Key, id, Merger(data, now), other);
    }
  }

  /** Updates and deletes keep the ids of the list distinct. */
  lemma UpdateProductKeepsUnique(products: seq<Product>, id: Id, data: ProductData, now: Timestamp)
    requires EntityStore.UniqueIds(products, Key)
    ensures EntityStore.UniqueIds(UpdateProduct(products, id, data, now), Key)
  {
    MergerKeepsKey(data, now, id);
    EntityStore.UpdateKeepsKeys(products, Key, id, Merger(data, now));
  }

  lemma DeleteProductKeepsUnique(products: seq<Product>, id: Id)
    requires EntityStore.UniqueIds(products, Key)
    ensures EntityStore.UniqueIds(DeleteProduct(products, id), Key)
  {
    EntityStore.RemoveKeepsUnique(products, Key, id);
  }
}

=== FILE: sale_page.dfy ===
/** The sale page's handlers (`Vendas.tsx`): each one changes the sale list
    and, through the product store's update, the stock of one product. A
    sale's quantity is held in its `stock` field. */
module SalePage {
  import opened Common
  import EntityStore
  import Products
  import Sells
  import SellForm

  /** The two lists the page works on. */
  datatype Inventory = Inventory(products: seq<Products.Product>, sells: seq<Sells.Sell>)

  /** `{...product, stock: newStock}`, the argument the page passes to `updateProduct`. */
  function WithStock(p: Products.Product, stock: int): Products.ProductData {
    Products.ProductData(p.name, p.price, p.description, stock, p.createdAt)
  }

  /** `p` with its stock replaced and `updatedAt = now`. */
  function Restocked(p: Products.Product, stock: int, now: Timestamp): Products.Product {
    p.(stock := stock, updatedAt := Some(now))
  }

  /** `{...p, stock}` merged into `p` itself changes only its stock and `updatedAt`. */
  lemma MergeWithStock(p: Products.Product, stock: int, now: Timestamp)
    ensures Products.Merge(p, WithStock(p, stock), now) == Restocked(p, stock, now)
  {
  }

  /** `updateProduct(product.id, {...product, stock})` for the product a get
      of `pid` finds. That get afterwards finds the product with the new
      stock and `updatedAt = now`. */
  function WriteStock(products: seq<Products.Product>, pid: Id, stock: int, now: Timestamp): (r: seq<Products.Product>)
    requires Products.GetProduct(products, pid).Some?
    ensures Products.GetProduct(r, pid) == Some(Restocked(Products.GetProduct(products, pid).value, stock, now))
  {
    var p := Products.GetProduct(products, pid).value;
    Products.GetAfterUpdate(products, pid, WithStock(p, stock), now);
    MergeWithStock(p, stock, now);
    Products.UpdateProduct(products, pid, WithStock(p, stock), now)
  }

  /** Find the first product carrying `pid` and, if there is one, write back
      its stock plus `delta`. No lower bound applies. */
  function AdjustStock(products: seq<Products.Product>, pid: Id, delta: int, now: Timestamp): (r: seq<Products.Product>)
    ensures Products.GetProduct(products, pid).None? ==> r == products
    ensures Products.GetProduct(products, pid).Some? ==>
      var p := Products.GetProduct(products, pid).value;
      Products.GetProduct(r, pid) == Some(Restocked(p, Shifted(p, delta), now))
  {
    if Products.GetProduct(products, pid).None? then products
    else WriteStock(products, pid, Shifted(Products.GetProduct(products, pid).value, delta), now)
  }

  /** The stock of `p` moved by `delta`. */
  function Shifted(p: Products.Product, delta: int): int { p.stock + delta }

  /** Writing the stock of `pid` leaves what a get of any other id finds. */
  lemma WriteStockOther(products: seq<Products.Product>, pid: Id, stock: int, now: Timestamp, other: Id)
    requires Products.GetProduct(products, pid).Some? && other != pid
    ensures Products.GetProduct(WriteStock(products, pid, stock, now), other) == Products.GetProduct(products, other)
  {
    var p := Products.GetProduct(products, pid).value;
    Products.GetAfterUpdate(products, pid, WithStock(p, stock), now);
  }

  /** A stock adjustment of `pid` leaves what a get of any other id finds. */
  lemma AdjustStockOther(products: seq<Products.Product>, pid: Id, delta: int, now: Timestamp, other: Id)
    requires other != pid
    ensures Products.GetProduct(AdjustStock(products, pid, delta, now), other) == Products.GetProduct(products, other)
  {
    if Products.GetProduct(products, pid).Some? {
      WriteStockOther(products, pid, Shifted(Products.GetProduct(products, pid).value, delta), now, other);
    }
  }

  /** The stock the page sees for `pid`: that of the first product carrying
      it, or 0 when there is none. */
  function StockOf(products: seq<Products.Product>, pid: Id): int {
    SellForm.MaxQuantity(products, pid)
  }

  predicate Listed(products: seq<Products.Product>, pid: Id) {
    Products.GetProduct(products, pid).Some?
  }

  /** A stock adjustment moves the seen stock of `pid` by `delta` when `pid`
      is listed, and the seen stock of every other id not at all; which ids
      are listed does not change. */
  lemma AdjustStockOf(products: seq<Products.Product>, pid: Id, delta: int, now: Timestamp, other: Id)
    ensures Listed(AdjustStock(products, pid, delta, now), other) == Listed(products, other)
    ensures StockOf(AdjustStock(products, pid, delta, now), other)
         == StockOf(products, other) + (if other == pid && Listed(products, pid) then delta else 0)
  {
    if other != pid {
      AdjustStockOther(products, pid, delta, now, other);
    }
  }

  /* The sold quantity and the ledger */

  /** How much of a sale's quantity counts against `pid`. */
  function Share(s: Sells.Sell, pid: Id): int {
    if s.productId == pid then s.stock else 0
  }

  /** The total quantity the sale list records against `pid`. */
  function SoldQuantity(sells: seq<Sells.Sell>, pid: Id): int {
    if |sells| == 0 then 0
    else SoldQuantity(sells[..|sells| - 1], pid) + Share(sells[|sells| - 1], pid)
  }

  /** The sold quantity of a concatenation is the sum of the parts'. */
  lemma {:induction false} SoldConcat(a: seq<Sells.Sell>, b: seq<Sells.Sell>, pid: Id)
    ensures SoldQuantity(a + b, pid) == SoldQuantity(a, pid) + SoldQuantity(b, pid)
    decreases |b|
  {
    if |b| == 0 {
      assert a + b == a;
    } else {
      assert (a + b)[..|a + b| - 1] == a + b[..|b| - 1];
      SoldConcat(a, b[..|b| - 1], pid);
    }
  }

  lemma SoldSingle(s: Sells.Sell, pid: Id)
    ensures SoldQuantity([s], pid) == Share(s, pid)
  {
    assert [s][..0] == [];
  }

  /** Replacing one sale moves the sold quantity by the difference of the two shares. */
  lemma SoldReplace(sells: seq<Sells.Sell>, k: int, x: Sells.Sell, pid: Id)
    requires 0 <= k < |sells|
    ensures SoldQuantity(sells[k := x], pid) == SoldQuantity(sells, pid) - Share(sells[k], pid) + Share(x, pid)
  {
    assert sells == sells[..k] + [sells[k]] + sells[k + 1..];
    assert sells[k := x] == sells[..k] + [x] + sells[k + 1..];
    SoldConcat(sells[..k] + [sells[k]], sells[k + 1..], pid);
    SoldConcat(sells[..k], [sells[k]], pid);
    SoldConcat(sells[..k] + [x], sells[k + 1..], pid);
    SoldConcat(sells[..k], [x], pid);
    SoldSingle(sells[k], pid);
    SoldSingle(x, pid);
  }

  /** Dropping one sale takes its share off the sold quantity. */
  lemma SoldRemove(sells: seq<Sells.Sell>, k: int, pid: Id)
    requires 0 <= k < |sells|
    ensures SoldQuantity(sells[..k] + sells[k + 1..], pid) == SoldQuantity(sells, pid) - Share(sells[k], pid)
  {
    assert sells == sells[..k] + [sells[k]] + sells[k + 1..];
    SoldConcat(sells[..k] + [sells[k]], sells[k + 1..], pid);
    SoldConcat(sells[..k], [sells[k]], pid);
    SoldConcat(sells[..k], sells[k + 1..], pid);
    SoldSingle(sells[k], pid);
  }

  /** Everything the page's records hold of `pid`: the stock it sees plus
      the quantity its sales record. A sale moves units from the first to
      the second; no handler is meant to create or destroy any. */
  function Ledger(inv: Inventory, pid: Id): int {
    StockOf(inv.products, pid) + SoldQuantity(inv.sells, pid)
  }

  /* The handlers */

  /** The stock change a sale of `q` units makes: they leave the shelf. */
  function Outflow(q: int): int { -q }

  /** `stockDifference` of `handleUpdateSell`: the old quantity minus the new
      one, i.e. the units an edit gives back to stock. */
  function StockDifference(s: Sells.Sell, data: Sells.SellData): int { s.stock - data.stock }

  /** `handleAddSell`: the sold product's stock drops by the quantity (when
      the product is listed), then the sale is appended under `newId`. */
  function HandleAddSell(inv: Inventory, data: Sells.SellData, newId: Id, now: Timestamp): (r: Inventory)
    requires EntityStore.Fresh(inv.sells, Sells.Key, newId)
    ensures |r.sells| == |inv.sells| + 1 && r.sells[..|inv.sells|] == inv.sells
    ensures r.sells[|inv.sells|].id == newId
    ensures r.sells[|inv.sells|].productId == data.productId && r.sells[|inv.sells|].stock == data.stock
  {
    Inventory(AdjustStock(inv.products, data.productId, Outflow(data.stock), now), Sells.AddSell(inv.sells, data, newId, now).sells)
  }

  /** `handleUpdateSell` as written: with no sale selected nothing happens;
      otherwise the product named by the NEW data has its stock moved by the
      old quantity minus the new one, and the selected sale takes the data. */
  function HandleUpdateSell(inv: Inventory, selected: Option<Sells.Sell>, data: Sells.SellData, now: Timestamp): (r: Inventory)
    ensures selected.None? ==> r == inv
    ensures selected.Some? ==> |r.sells| == |inv.sells|
    ensures selected.Some? ==> forall i :: 0 <= i < |inv.sells| && inv.sells[i].id == selected.value.id ==>
      r.sells[i].productId == data.productId && r.sells[i].stock == data.stock
  {
    match selected
    case None => inv
    case Some(s) =>
      Inventory(AdjustStock(inv.products, data.productId, StockDifference(s, data), now), Sells.UpdateSell(inv.sells, s.id, data, now))
  }

  /** `handleDeleteConfirm`: with no sale selected nothing happens; otherwise
      the sale's quantity goes back to its product's stock (when listed) and
      the sale is deleted. */
  function HandleDeleteConfirm(inv: Inventory, selected: Option<Sells.Sell>, now: Timestamp): (r: Inventory)
    ensures selected.None? ==> r == inv
    ensures selected.Some? ==>
      && Sells.GetSell(r.sells, selected.value.id).None?
      && |r.sells| <= |inv.sells|
  {
    match selected
    case None => inv
    case Some(s) => Inventory(AdjustStock(inv.products, s.productId, s.stock, now), Sells.DeleteSell(inv.sells, s.id))
  }

  /* Conservation */

  /** What each handler does to the seen stock of any id `pid`. */
  lemma AddSellStock(inv: Inventory, data: Sells.SellData, newId: Id, now: Timestamp, pid: Id)
    requires EntityStore.Fresh(inv.sells, Sells.Key, newId)
    ensures var r := HandleAddSell(inv, data, newId, now);
      && Listed(r.products, pid) == Listed(inv.products, pid)
      && StockOf(r.products, pid)
         == StockOf(inv.products, pid) - (if pid == data.productId && Listed(inv.products, data.productId) then data.stock else 0)
  {
    AdjustStockOf(inv.products, data.productId, Outflow(data.stock), now, pid);
  }

  lemma UpdateSellStock(inv: Inventory, s: Sells.Sell, data: Sells.SellData, now: Timestamp, pid: Id)
    ensures var r := HandleUpdateSell(inv, Some(s), data, now);
      && Listed(r.products, pid) == Listed(inv.products, pid)
      && StockOf(r.products, pid)
         == StockOf(inv.products, pid) + (if pid == data.productId && Listed(inv.products, data.productId) then StockDifference(s, data) else 0)
  {
    AdjustStockOf(inv.products, data.productId, StockDifference(s, data), now, pid);
  }

  lemma DeleteSellStock(inv: Inventory, s: Sells.Sell, now: Timestamp, pid: Id)
    ensures var r := HandleDeleteConfirm(inv, Some(s), now);
      && Listed(r.products, pid) == Listed(inv.products, pid)
      && StockOf(r.products, pid)
         == StockOf(inv.products, pid) + (if pid == s.productId && Listed(inv.products, s.productId) then s.stock else 0)
  {
    AdjustStockOf(inv.products, s.productId, s.stock, now, pid);
  }

  lemma UpdateIntendedStock(inv: Inventory, s: Sells.Sell, data: Sells.SellData, now: Timestamp, pid: Id)
    ensures var r := HandleUpdateSellIntended(inv, Some(s), data, now);
      && Listed(r.products, pid) == Listed(inv.products, pid)
      && StockOf(r.products, pid)
         == StockOf(inv.products, pid)
            + (if pid == s.productId && Listed(inv.products, s.productId) then s.stock else 0)
            - (if pid == data.productId && Listed(inv.products, data.productId) then data.stock else 0)
  {
    var restored := AdjustStock(inv.products, s.productId, s.stock, now);
    AdjustStockOf(inv.products, s.productId, s.stock, now, pid);
    AdjustStockOf(restored, data.productId, Outflow(data.stock), now, pid);
  }

  /** What an edit of the sale at `k` does to the sold quantity of any id. */
  lemma UpdateSellSold(sells: seq<Sells.Sell>, k: int, data: Sells.SellData, now: Timestamp, pid: Id)
    requires EntityStore.UniqueIds(sells, Sells.Key) && 0 <= k < |sells|
    ensures SoldQuantity(Sells.UpdateSell(sells, sells[k].id, data, now), pid)
         == SoldQuantity(sells, pid) - Share(sells[k], pid) + (if pid == data.productId then data.stock else 0)
  {
    Sells.UpdateExistingSell(sells, k, data, now);
    SoldReplace(sells, k, Sells.Merge(sells[k], data, now), pid);
  }

  /** Adding a sale moves its quantity from the product's stock to the sales,
      so it keeps every ledger whose product is listed (and every ledger of
      another product). */
  lemma AddSellKeepsLedger(inv: Inventory, data: Sells.SellData, newId: Id, now: Timestamp, pid: Id)
    requires EntityStore.Fresh(inv.sells, Sells.Key, newId)
    requires pid != data.productId || Listed(inv.products, pid)
    ensures Ledger(HandleAddSell(inv, data, newId, now), pid) == Ledger(inv, pid)
  {
    var r := HandleAddSell(inv, data, newId, now);
    AddSellStock(inv, data, newId, now, pid);
    assert r.sells == inv.sells + [r.sells[|inv.sells|]];
    SoldConcat(inv.sells, [r.sells[|inv.sells|]], pid);
    SoldSingle(r.sells[|inv.sells|], pid);
  }

  /** Deleting a listed sale gives its quantity back to its product, so it
      keeps every ledger whose product is listed. */
  lemma DeleteSellKeepsLedger(inv: Inventory, k: int, now: Timestamp, pid: Id)
    requires EntityStore.UniqueIds(inv.sells, Sells.Key) && 0 <= k < |inv.sells|
    requires pid != inv.sells[k].productId || Listed(inv.products, pid)
    ensures Ledger(HandleDeleteConfirm(inv, Some(inv.sells[k]), now), pid) == Ledger(inv, pid)
  {
    DeleteSellStock(inv, inv.sells[k], now, pid);
    Sells.DeleteExistingSell(inv.sells, k);
    SoldRemove(inv.sells, k, pid);
  }

  /** Editing a sale without changing its product trades the old quantity
      for the new one on both sides, so it keeps every ledger whose product
      is listed. */
  lemma UpdateSameProductKeepsLedger(inv: Inventory, k: int, data: Sells.SellData, now: Timestamp, pid: Id)
    requires EntityStore.UniqueIds(inv.sells, Sells.Key) && 0 <= k < |inv.sells|
    requires data.productId == inv.sells[k].productId
    requires pid != data.productId || Listed(inv.products, pid)
    ensures Ledger(HandleUpdateSell(inv, Some(inv.sells[k]), data, now), pid) == Ledger(inv, pid)
  {
    UpdateSellStock(inv, inv.sells[k], data, now, pid);
    UpdateSellSold(inv.sells, k, data, now, pid);
  }

  /** Editing a sale onto another product, as written: the stock of the new
      product moves by old minus new quantity while the old product gets
      nothing back. The old product's ledger loses the old quantity and the
      new product's ledger gains it; every other ledger is kept. */
  lemma UpdateOtherProductShiftsLedger(inv: Inventory, k: int, data: Sells.SellData, now: Timestamp)
    requires EntityStore.UniqueIds(inv.sells, Sells.Key) && 0 <= k < |inv.sells|
    requires data.productId != inv.sells[k].productId
    requires Listed(inv.products, data.productId)
    ensures var r := HandleUpdateSell(inv, Some(inv.sells[k]), data, now);
      && Ledger(r, inv.sells[k].productId) == Ledger(inv, inv.sells[k].productId) - inv.sells[k].stock
      && Ledger(r, data.productId) == Ledger(inv, data.productId) + inv.sells[k].stock
  {
    UpdateSellStock(inv, inv.sells[k], data, now, inv.sells[k].productId);
    UpdateSellStock(inv, inv.sells[k], data, now, data.productId);
    UpdateSellSold(inv.sells, k, data, now, inv.sells[k].productId);
    UpdateSellSold(inv.sells, k, data, now, data.productId);
  }

  /* Each handler touches the stock of one product only */

  lemma AddSellLeavesOtherProducts(inv: Inventory, data: Sells.SellData, newId: Id, now: Timestamp, other: Id)
    requires EntityStore.Fresh(inv.sells, Sells.Key, newId)
    requires other != data.productId
    ensures Products.GetProduct(HandleAddSell(inv, data, newId, now).products, other) == Products.GetProduct(inv.products, other)
  {
    AdjustStockOther(inv.products, data.productId, Outflow(data.stock), now, other);
  }

  lemma UpdateSellLeavesOtherProducts(inv: Inventory, s: Sells.Sell, data: Sells.SellData, now: Timestamp, other: Id)
    requires other != data.productId
    ensures Products.GetProduct(HandleUpdateSell(inv, Some(s), data, now).products, other) == Products.GetProduct(inv.products, other)
  {
    AdjustStockOther(inv.products, data.productId, StockDifference(s, data), now, other);
  }

  lemma DeleteSellLeavesOtherProducts(inv: Inventory, s: Sells.Sell, now: Timestamp, other: Id)
    requires other != s.productId
    ensures Products.GetProduct(HandleDeleteConfirm(inv, Some(s), now).products, other) == Products.GetProduct(inv.products, other)
  {
    AdjustStockOther(inv.products, s.productId, s.stock, now, other);
  }

  /* The form's guard */

  /** A sale the form accepts never takes the seen stock of its product
      below zero: the quantity is at most that stock, and when the product
      is not listed the quantity is at most 0 and nothing is written. */
  lemma SubmittedAddKeepsStock(inv: Inventory, form: SellForm.FormState, priceText: string, newId: Id, now: Timestamp)
    requires EntityStore.Fresh(inv.sells, Sells.Key, newId)
    requires SellForm.HandleSubmit(inv.products, form, priceText).Some?
    ensures var data := SellForm.HandleSubmit(inv.products, form, priceText).value;
      StockOf(HandleAddSell(inv, data, newId, now).products, form.selectedProductId) >= 0
  {
    var data := SellForm.HandleSubmit(inv.products, form, priceText).value;
    AddSellStock(inv, data, newId, now, form.selectedProductId);
  }

  /** An accepted edit that keeps the sale on its listed product leaves that
      product at least the sale's old quantity: the form caps the new
      quantity at the current stock, and the old quantity comes back. */
  lemma SubmittedEditKeepsStock(inv: Inventory, s: Sells.Sell, form: SellForm.FormState, priceText: string, now: Timestamp)
    requires SellForm.HandleSubmit(inv.products, form, priceText).Some?
    requires form.selectedProductId == s.productId && Listed(inv.products, s.productId)
    ensures var data := SellForm.HandleSubmit(inv.products, form, priceText).value;
      StockOf(HandleUpdateSell(inv, Some(s), data, now).products, s.productId) >= s.stock
  {
    var data := SellForm.HandleSubmit(inv.products, form, priceText).value;
    UpdateSellStock(inv, s, data, now, s.productId);
  }

  /** Without the form's check nothing stops the page: selling 8 of the 7
      units of "A" leaves its stock at -1. */
  lemma ExampleOversell(newId: Id, now: Timestamp)
    requires EntityStore.Fresh(ExampleInventory().sells, Sells.Key, newId)
    ensures var data := Sells.SellData("Caneta", "16", "", 8, "A", None, None);
      StockOf(HandleAddSell(ExampleInventory(), data, newId, now).products, "A") == -1
  {
    var inv := ExampleInventory();
    var data := Sells.SellData("Caneta", "16", "", 8, "A", None, None);
    assert Products.GetProduct(inv.products, "A") == Some(inv.products[0]) by {
      assert EntityStore.IsFirstMatch(inv.products, Products.Key, "A", 0);
    }
    AddSellStock(inv, data, newId, now, "A");
  }

  /* Round trip */

  /** Deleting the sale just added gives back the sale list, which ids have a
      product, and every id's stock; the product records themselves keep the
      later `updatedAt` the stock writes gave them. */
  lemma AddThenDeleteRestores(inv: Inventory, data: Sells.SellData, newId: Id, now: Timestamp, later: Timestamp, pid: Id)
    requires EntityStore.Fresh(inv.sells, Sells.Key, newId)
    ensures var added := HandleAddSell(inv, data, newId, now);
      var back := HandleDeleteConfirm(added, Some(added.sells[|inv.sells|]), later);
      && back.sells == inv.sells
      && Listed(back.products, pid) == Listed(inv.products, pid)
      && StockOf(back.products, pid) == StockOf(inv.products, pid)
  {
    var added := HandleAddSell(inv, data, newId, now);
    var sale := added.sells[|inv.sells|];
    Sells.AddThenDeleteSell(inv.sells, data, newId, now);
    AddSellStock(inv, data, newId, now, pid);
    AddSellStock(inv, data, newId, now, data.productId);
    DeleteSellStock(added, sale, later, pid);
  }

  /** The sale an edit of the last sale leaves at the end of the list: the
      old record merged with the edit. */
  lemma EditLastSale(inv: Inventory, sale: Sells.Sell, edit: Sells.SellData, t2: Timestamp)
    requires EntityStore.Fresh(inv.sells, Sells.Key, sale.id) && EntityStore.UniqueIds(inv.sells, Sells.Key)
    ensures Sells.UpdateSell(inv.sells + [sale], sale.id, edit, t2) == inv.sells + [Sells.Merge(sale, edit, t2)]
  {
    var xs := inv.sells + [sale];
    EntityStore.AppendKeepsUnique(inv.sells, sale, Sells.Key);
    Sells.UpdateExistingSell(xs, |inv.sells|, edit, t2);
    assert xs[|inv.sells| := Sells.Merge(sale, edit, t2)] == inv.sells + [Sells.Merge(sale, edit, t2)];
  }

  /** Adding a sale, editing it without changing its product and deleting
      it gives back the sale list, which ids have a product, and every id's
      stock; the product records keep the later `updatedAt`. */
  lemma AddEditDeleteRestores(inv: Inventory, data: Sells.SellData, newId: Id, t1: Timestamp,
                              edit: Sells.SellData, t2: Timestamp, t3: Timestamp, pid: Id)
    requires EntityStore.Fresh(inv.sells, Sells.Key, newId) && EntityStore.UniqueIds(inv.sells, Sells.Key)
    requires edit.productId == data.productId
    ensures var added := HandleAddSell(inv, data, newId, t1);
      var edited := HandleUpdateSell(added, Some(added.sells[|inv.sells|]), edit, t2);
      var deleted := HandleDeleteConfirm(edited, Some(edited.sells[|inv.sells|]), t3);
      && deleted.sells == inv.sells
      && Listed(deleted.products, pid) == Listed(inv.products, pid)
      && StockOf(deleted.products, pid) == StockOf(inv.products, pid)
  {
    var n := |inv.sells|;
    var added := HandleAddSell(inv, data, newId, t1);
    var sale := added.sells[n];
    assert added.sells == inv.sells + [sale];
    EditLastSale(inv, sale, edit, t2);
    var changed := Sells.Merge(sale, edit, t2);
    var edited := HandleUpdateSell(added, Some(sale), edit, t2);
    assert edited.sells[n] == changed;
    EntityStore.AppendThenRemove(inv.sells, changed, Sells.Key);
    StockRoundTrip(inv, data, newId, t1, edit, t2, t3, pid);
  }

  /** The stock half of the round trip: the three adjustments of the sold
      product cancel out. */
  lemma StockRoundTrip(inv: Inventory, data: Sells.SellData, newId: Id, t1: Timestamp,
                       edit: Sells.SellData, t2: Timestamp, t3: Timestamp, pid: Id)
    requires EntityStore.Fresh(inv.sells, Sells.Key, newId)
    requires edit.productId == data.productId
    ensures var added := HandleAddSell(inv, data, newId, t1);
      var edited := HandleUpdateSell(added, Some(added.sells[|inv.sells|]), edit, t2);
      var changed := Sells.Merge(added.sells[|inv.sells|], edit, t2);
      var deleted := HandleDeleteConfirm(edited, Some(changed), t3);
      && Listed(deleted.products, pid) == Listed(inv.products, pid)
      && StockOf(deleted.products, pid) == StockOf(inv.products, pid)
  {
    var added := HandleAddSell(inv, data, newId, t1);
    var sale := added.sells[|inv.sells|];
    var edited := HandleUpdateSell(added, Some(sale), edit, t2);
    var changed := Sells.Merge(sale, edit, t2);
    AddSellStock(inv, data, newId, t1, pid);
    AddSellStock(inv, data, newId, t1, data.productId);
    UpdateSellStock(added, sale, edit, t2, pid);
    DeleteSellStock(edited, changed, t3, pid);
  }

  /** A sale's life on one product of 10 units: selling 3 leaves 7, editing
      the sale to 5 leaves 5, deleting it gives back 10 and an empty sale list. */
  lemma ExampleSaleLifecycle(newId: Id, t1: Timestamp, t2: Timestamp, t3: Timestamp)
    ensures var inv := Inventory([Products.Product("P", "Caneta", "2.00", "", 10, None, None)], []);
      var added := HandleAddSell(inv, Sells.SellData("Caneta", "6", "", 3, "P", None, None), newId, t1);
      var edited := HandleUpdateSell(added, Some(added.sells[0]), Sells.SellData("Caneta", "10", "", 5, "P", None, None), t2);
      var deleted := HandleDeleteConfirm(edited, Some(edited.sells[0]), t3);
      && StockOf(added.products, "P") == 7
      && StockOf(edited.products, "P") == 5
      && StockOf(deleted.products, "P") == 10
      && deleted.sells == []
  {
    var inv := Inventory([Products.Product("P", "Caneta", "2.00", "", 10, None, None)], []);
    var sold := Sells.SellData("Caneta", "6", "", 3, "P", None, None);
    var resold := Sells.SellData("Caneta", "10", "", 5, "P", None, None);
    assert Listed(inv.products, "P") && StockOf(inv.products, "P") == 10 by {
      assert EntityStore.IsFirstMatch(inv.products, Products.Key, "P", 0);
    }
    var added := HandleAddSell(inv, sold, newId, t1);
    AddSellStock(inv, sold, newId, t1, "P");
    UpdateSellStock(added, added.sells[0], resold, t2, "P");
    AddEditDeleteRestores(inv, sold, newId, t1, resold, t2, t3, "P");
  }

  /* Moving a sale to another product */

  /** Two products and one sale of 3 units of the first: "A" holds 7 in
      stock, "B" holds 5. */
  function ExampleInventory(): Inventory {
    Inventory(
      [Products.Product("A", "Caneta", "2.00", "", 7, None, None),
       Products.Product("B", "Caderno", "10.00", "", 5, None, None)],
      [Sells.Sell("v1", "Caneta", "6", "", 3, "A", None, None, None)])
  }

  /** The sale edited to 2 units of "B". */
  function ExampleEdit(): Sells.SellData {
    Sells.SellData("Caderno", "20", "", 2, "B", None, None)
  }

  /** As written, the edit leaves "A" at 7 although its 3 units are no longer
      sold, and sets "B" to 5 + 3 - 2 = 6 although 2 of its units are now sold. */
  lemma ExampleCrossProductEdit(now: Timestamp)
    ensures var r := HandleUpdateSell(ExampleInventory(), Some(ExampleInventory().sells[0]), ExampleEdit(), now);
      StockOf(r.products, "A") == 7 && StockOf(r.products, "B") == 6
  {
    var inv := ExampleInventory();
    assert Products.GetProduct(inv.products, "A") == Some(inv.products[0]) by {
      assert EntityStore.IsFirstMatch(inv.products, Products.Key, "A", 0);
    }
    assert Products.GetProduct(inv.products, "B") == Some(inv.products[1]) by {
      assert "A" != "B" by { assert "A"[0] != "B"[0]; }
      assert EntityStore.IsFirstMatch(inv.products, Products.Key, "B", 1);
    }
    assert "A" != "B" by { assert "A"[0] != "B"[0]; }
  }

  /** `handleUpdateSell` as evidently intended: the old quantity goes back to
      the old product, then the new quantity comes off the new product. */
  function HandleUpdateSellIntended(inv: Inventory, selected: Option<Sells.Sell>, data: Sells.SellData, now: Timestamp): (r: Inventory)
    ensures selected.None? ==> r == inv
    ensures selected.Some? ==> |r.sells| == |inv.sells|
    ensures selected.Some? ==> forall i :: 0 <= i < |inv.sells| && inv.sells[i].id == selected.value.id ==>
      r.sells[i].productId == data.productId && r.sells[i].stock == data.stock
  {
    match selected
    case None => inv
    case Some(s) =>
      var restored := AdjustStock(inv.products, s.productId, s.stock, now);
      Inventory(AdjustStock(restored, data.productId, Outflow(data.stock), now), Sells.UpdateSell(inv.sells, s.id, data, now))
  }

  /** The intended edit keeps every ledger whose product is listed, whether
      or not the sale changes product. */
  lemma UpdateIntendedKeepsLedger(inv: Inventory, k: int, data: Sells.SellData, now: Timestamp, pid: Id)
    requires EntityStore.UniqueIds(inv.sells, Sells.Key) && 0 <= k < |inv.sells|
    requires pid != inv.sells[k].productId || Listed(inv.products, pid)
    requires pid != data.productId || Listed(inv.products, pid)
    ensures Ledger(HandleUpdateSellIntended(inv, Some(inv.sells[k]), data, now), pid) == Ledger(inv, pid)
  {
    UpdateIntendedStock(inv, inv.sells[k], data, now, pid);
    UpdateSellSold(inv.sells, k, data, now, pid);
  }

  /** When the product does not change, the intended edit and the written
      one agree on the sales, on which products are listed and on every
      stock. */
  lemma UpdateIntendedAgreesOnSameProduct(inv: Inventory, s: Sells.Sell, data: Sells.SellData, now: Timestamp, pid: Id)
    requires data.productId == s.productId
    ensures var intended := HandleUpdateSellIntended(inv, Some(s), data, now);
      var written := HandleUpdateSell(inv, Some(s), data, now);
      && intended.sells == written.sells
      && Listed(intended.products, pid) == Listed(written.products, pid)
      && StockOf(intended.products, pid) == StockOf(written.products, pid)
  {
    UpdateIntendedStock(inv, s, data, now, pid);
    UpdateSellStock(inv, s, data, now, pid);
  }

  /** On the example the intended edit gives "A" back its 3 units and takes
      2 from "B". */
  lemma ExampleCrossProductEditIntended(now: Timestamp)
    ensures var r := HandleUpdateSellIntended(ExampleInventory(), Some(ExampleInventory().sells[0]), ExampleEdit(), now);
      StockOf(r.products, "A") == 10 && StockOf(r.products, "B") == 3
  {
    var inv := ExampleInventory();
    assert "A" != "B" by { assert "A"[0] != "B"[0]; }
    assert Products.GetProduct(inv.products, "A") == Some(inv.products[0]) by {
      assert EntityStore.IsFirstMatch(inv.products, Products.Key, "A", 0);
    }
    assert Products.GetProduct(inv.products, "B") == Some(inv.products[1]) by {
      assert EntityStore.IsFirstMatch(inv.products, Products.Key, "B", 1);
    }
    var restored := AdjustStock(inv.products, "A", 3, now);
    AdjustStockOf(inv.products, "A", 3, now, "A");
    AdjustStockOf(inv.products, "A", 3, now, "B");
    AdjustStockOf(restored, "B", -2, now, "A");
    AdjustStockOf(restored, "B", -2, now, "B");
  }
}

=== FILE: sell_form.dfy ===
/** The submit handler of the sale form (`SellForm.handleSubmit`): the
    quantity is parsed, checked against the selected product's stock, and on
    success a sale record is handed to the page. */
module SellForm {
  import opened Common
  import opened JsText
  import EntityStore
  import Products
  import Sells

  /** The form's fields at submission: the quantity text, the description and
      the id chosen in the product drop-down ("" when none). */
  datatype FormState = FormState(quantity: string, description: string, selectedProductId: Id)

  /** `parseInt(quantity) || 0`: NaN (and zero) become 0. */
  function QuantityOf(text: string): (q: int)
    ensures ParseInt(text).None? ==> q == 0
    ensures q != 0 ==> ParseInt(text) == Some(q)
  {
    match ParseInt(text)
    case None => 0
    case Some(n) => n
  }

  /** `selectedProduct?.stock || 0`: the stock of the first product carrying
      the selected id, or 0 when none does. */
  function MaxQuantity(products: seq<Products.Product>, selectedId: Id): (m: int)
    ensures (forall i :: 0 <= i < |products| ==> products[i].id != selectedId) ==> m == 0
    ensures forall i :: EntityStore.IsFirstMatch(products, Products.Key, selectedId, i) ==>
      m == products[i].stock
  {
    match Products.GetProduct(products, selectedId)
    case None => 0
    case Some(p) => p.stock
  }

  /** `selectedProduct?.name || ''`. */
  function SelectedName(products: seq<Products.Product>, selectedId: Id): (name: string)
    ensures (forall i :: 0 <= i < |products| ==> products[i].id != selectedId) ==> name == ""
    ensures forall i :: EntityStore.IsFirstMatch(products, Products.Key, selectedId, i) ==>
      name == products[i].name
  {
    match Products.GetProduct(products, selectedId)
    case None => ""
    case Some(p) => p.name
  }

  /** `handleSubmit`: `None` when the quantity exceeds the allowed maximum
      (the alert, nothing emitted); otherwise the record passed to `onSubmit`.
      `priceText` is the text of the total price, whose floating-point
      computation is not part of this model. */
  function HandleSubmit(products: seq<Products.Product>, form: FormState, priceText: string): (r: Option<Sells.SellData>)
    ensures r.None? <==> QuantityOf(form.quantity) > MaxQuantity(products, form.selectedProductId)
    ensures r.Some? ==>
      && r.value.stock == QuantityOf(form.quantity)
      && r.value.stock <= MaxQuantity(products, form.selectedProductId)
      && r.value.productId == form.selectedProductId
      && r.value.name == SelectedName(products, form.selectedProductId)
      && r.value.description == form.description
      && r.value.price == priceText
      && r.value.clientId.None? && r.value.createdAt.None?
  {
    var quantity := QuantityOf(form.quantity);
    if quantity > MaxQuantity(products, form.selectedProductId) then None
    else Some(Sells.SellData(SelectedName(products, form.selectedProductId), priceText,
                             form.description, quantity, form.selectedProductId, None, None))
  }

  /** An integer typed as its decimal text, possibly followed by a fraction or
      exponent, is read as that integer. */
  lemma QuantityOfNumberText(n: int, rest: string)
    requires |rest| == 0 || rest[0] == '.' || rest[0] == 'e' || rest[0] == 'E'
    ensures QuantityOf(IntToString(n) + rest) == n
  {
    ParseIntOfIntToString(n, rest);
  }

  /** Text whose first non-blank character is neither a digit nor a sign
      (including empty text) is read as 0. */
  lemma QuantityOfNonNumeric(text: string)
    ensures (|TrimStart(text)| == 0
             || (!IsDecimalDigit(TrimStart(text)[0]) && TrimStart(text)[0] != '-' && TrimStart(text)[0] != '+'))
            ==> QuantityOf(text) == 0
  {
  }

  /** Without a selected product only quantities of at most 0 are accepted. */
  lemma NoProductAcceptsNothingPositive(products: seq<Products.Product>, form: FormState, priceText: string)
    requires forall i :: 0 <= i < |products| ==> products[i].id != form.selectedProductId
    ensures HandleSubmit(products, form, priceText).Some? <==> QuantityOf(form.quantity) <= 0
    ensures HandleSubmit(products, form, priceText).Some? ==> HandleSubmit(products, form, priceText).value.name == ""
  {
  }
}

=== FILE: sells.dfy ===
/** The sale store (`useSellStore`): an ordered list of sales that starts
    empty. A sale's `stock` field holds the quantity sold. */
module Sells {
  import opened Common
  import EntityStore

  datatype Sell = Sell(
    id: Id,
    name: string,          // copy of the product's name at sale time
    price: string,         // decimal text, total of the sale
    description: string,
    stock: int,            // quantity sold
    productId: Id,
    clientId: Option<Id>,
    createdAt: Option<Timestamp>,
    updatedAt: Option<Timestamp>)

  /** `Omit<Sell, 'id'>`, the argument of add and update. Its optional
      `clientId` and `createdAt` override on update only when present; its
      `updatedAt` is always overwritten, so it is not carried here. */
  datatype SellData = SellData(
    name: string,
    price: string,
    description: string,
    stock: int,
    productId: Id,
    clientId: Option<Id>,
    createdAt: Option<Timestamp>)

  /** A new list together with the record `addSell` returns. */
  datatype Added = Added(sells: seq<Sell>, sell: Sell)

  function Key(s: Sell): Id { s.id }

  /** The value the store holds before anything was persisted. */
  function InitialSells(): (r: seq<Sell>)
    ensures |r| == 0
  {
    []
  }

  /** `addSell`: a record with the fresh id and both timestamps set to `now`,
      appended after every existing sale. The source reads the clock twice;
      the single reading `now` stands for both. */
  function AddSell(sells: seq<Sell>, data: SellData, id: Id, now: Timestamp): (r: Added)
    requires EntityStore.Fresh(sells, Key, id)
    ensures r.sell.id == id
    ensures r.sell.name == data.name && r.sell.price == data.price && r.sell.description == data.description
    ensures r.sell.stock == data.stock && r.sell.productId == data.productId && r.sell.clientId == data.clientId
    ensures r.sell.createdAt == Some(now) && r.sell.updatedAt == Some(now)
    ensures |r.sells| == |sells| + 1
    ensures r.sells[..|sells|] == sells && r.sells[|sells|] == r.sell
    ensures EntityStore.UniqueIds(sells, Key) ==> EntityStore.UniqueIds(r.sells, Key)
  {
    var s := Sell(id, data.name, data.price, data.description, data.stock, data.productId,
                  data.clientId, Some(now), Some(now));
    EntityStore.AppendKeepsUnique(sells, s, Key);
    Added(sells + [s], s)
  }

  /** `{...sell, ...data, updatedAt: now}`. */
  function Merge(s: Sell, data: SellData, now: Timestamp): Sell {
    s.(name := data.name, price := data.price, description := data.description, stock := data.stock,
       productId := data.productId, clientId := SpreadOptional(s.clientId, data.clientId),
       createdAt := SpreadOptional(s.createdAt, data.createdAt), updatedAt := Some(now))
  }

  /** The merge `updateSell` applies to each matching record. */
  function Merger(data: SellData, now: Timestamp): Sell -> Sell {
    s => Merge(s, data, now)
  }

  /** `updateSell`: every sale carrying `id` takes the supplied fields and
      `updatedAt = now`, keeping its id and, unless supplied, its client and
      `createdAt`. Every other sale is left where and as it was. */
  function UpdateSell(sells: seq<Sell>, id: Id, data: SellData, now: Timestamp): (r: seq<Sell>)
    ensures |r| == |sells|
    ensures forall i :: 0 <= i < |sells| && sells[i].id != id ==> r[i] == sells[i]
    ensures forall i :: 0 <= i < |sells| && sells[i].id == id ==>
      && r[i].id == id
      && r[i].name == data.name && r[i].price == data.price && r[i].description == data.description
      && r[i].stock == data.stock && r[i].productId == data.productId
      && r[i].clientId == (if data.clientId.Some? then data.clientId else sells[i].clientId)
      && r[i].createdAt == (if data.createdAt.Some? then data.createdAt else sells[i].createdAt)
      && r[i].updatedAt == Some(now)
    ensures EntityStore.Fresh(sells, Key, id) ==> r == sells
  {
    EntityStore.UpdateWhere(sells, Key, id, Merger(data, now))
  }

  /** `deleteSell`: the sales not carrying `id`, in their order. */
  function DeleteSell(sells: seq<Sell>, id: Id): (r: seq<Sell>)
    ensures forall i :: 0 <= i < |r| ==> r[i].id != id && r[i] in sells
    ensures forall i :: 0 <= i < |sells| && sells[i].id != id ==> sells[i] in r
    ensures EntityStore.Fresh(sells, Key, id) ==> r == sells
  {
    EntityStore.RemoveId(sells, Key, id)
  }

  /** `getSell`: the first sale carrying `id`, or nothing. */
  function GetSell(sells: seq<Sell>, id: Id): (r: Option<Sell>)
    ensures r.None? <==> forall i :: 0 <= i < |sells| ==> sells[i].id != id
    ensures r.Some? ==> r.value.id == id && r.value in sells
    ensures forall i :: EntityStore.IsFirstMatch(sells, Key, id, i) ==> r == Some(sells[i])
  {
    EntityStore.Find(sells, Key, id)
  }

  /** Deleting a sale twice is deleting it once. */
  lemma DeleteSellIdempotent(sells: seq<Sell>, id: Id)
    ensures DeleteSell(DeleteSell(sells, id), id) == DeleteSell(sells, id)
  {
    EntityStore.RemoveIdempotent(sells, Key, id);
  }

  /** Adding a sale and deleting it by the returned id gives back the list. */
  lemma AddThenDeleteSell(sells: seq<Sell>, data: SellData, id: Id, now: Timestamp)
    requires EntityStore.Fresh(sells, Key, id)
    ensures var added := AddSell(sells, data, id, now);
      DeleteSell(added.sells, added.sell.id) == sells
  {
    var added := AddSell(sells, data, id, now);
    EntityStore.AppendThenRemove(sells, added.sell, Key);
  }

  /** The sale `addSell` returns is what a get of its id finds. */
  lemma GetAddedSell(sells: seq<Sell>, data: SellData, id: Id, now: Timestamp)
    requires EntityStore.Fresh(sells, Key, id)
    ensures var added := AddSell(sells, data, id, now);
      GetSell(added.sells, id) == Some(added.sell)
  {
    EntityStore.FindAppended(sells, AddSell(sells, data, id, now).sell, Key);
  }

  /** With unique ids, a get of an existing sale's id finds that sale. */
  lemma GetExistingSell(sells: seq<Sell>, k: int)
    requires EntityStore.UniqueIds(sells, Key) && 0 <= k < |sells|
    ensures GetSell(sells, sells[k].id) == Some(sells[k])
  {
    EntityStore.FindUnique(sells, Key, k);
  }

  /** With unique ids, updating an existing sale replaces that one record. */
  lemma UpdateExistingSell(sells: seq<Sell>, k: int, data: SellData, now: Timestamp)
    requires EntityStore.UniqueIds(sells, Key) && 0 <= k < |sells|
    ensures UpdateSell(sells, sells[k].id, data, now) == sells[k := Merge(sells[k], data, now)]
  {
    EntityStore.UpdateUnique(sells, Key, k, Merger(data, now));
  }

  /** With unique ids, deleting an existing sale drops exactly that record. */
  lemma DeleteExistingSell(sells: seq<Sell>, k: int)
    requires EntityStore.UniqueIds(sells, Key) && 0 <= k < |sells|
    ensures DeleteSell(sells, sells[k].id) == sells[..k] + sells[k + 1..]
    ensures |DeleteSell(sells, sells[k].id)| == |sells| - 1
  {
    EntityStore.RemoveUnique(sells, Key, k);
  }

  /** The update merge never changes a record's id. */
  lemma MergerKeepsKey(data: SellData, now: Timestamp, id: Id)
    ensures EntityStore.KeepsKey(Merger(data, now), Key, id)
  {
    forall s: Sell | Key(s) == id
      ensures Key(Merger(data, now)(s)) == id
    {
      assert Merger(data, now)(s) == Merge(s, data, now);
    }
  }

  /** Updates and deletes keep the ids of the list distinct. */
  lemma UpdateSellKeepsUnique(sells: seq<Sell>, id: Id, data: SellData, now: Timestamp)
    requires EntityStore.UniqueIds(sells, Key)
    ensures EntityStore.UniqueIds(UpdateSell(sells, id, data, now), Key)
  {
    MergerKeepsKey(data, now, id);
    EntityStore.UpdateKeepsKeys(sells, Key, id, Merger(data, now));
  }

  lemma DeleteSellKeepsUnique(sells: seq<Sell>, id: Id)
    requires EntityStore.UniqueIds(sells, Key)
    ensures EntityStore.UniqueIds(DeleteSell(sells, id), Key)
  {
    EntityStore.RemoveKeepsUnique(sells, Key, id);
  }
}

=== FILE: users.dfy ===
/** The user store (`useUserStore`): an ordered list of users that starts
    empty. Unlike the other stores, an update refreshes no timestamp. */
module Users {
  import opened Common
  import EntityStore

  /** The user record. `createdAt` is the clock reading whose ISO-8601 text
      the store keeps. */
  datatype User = User(id: Id, name: string, email: string, role: string, createdAt: Timestamp)

  /** `Omit<User, 'id' | 'createdAt'>`, the argument of add and update. */
  datatype UserData = UserData(name: string, email: string, role: string)

  /** A new list together with the record `addUser` returns. */
  datatype Added = Added(users: seq<User>, user: User)

  function Key(u: User): Id { u.id }

  /** The value the store holds before anything was persisted. */
  function InitialUsers(): (r: seq<User>)
    ensures |r| == 0
  {
    []
  }

  /** `addUser`: a record with the fresh id and `createdAt = now`, appended
      after every existing user. */
  function AddUser(users: seq<User>, data: UserData, id: Id, now: Timestamp): (r: Added)
    requires EntityStore.Fresh(users, Key, id)
    ensures r.user.id == id && r.user.createdAt == now
    ensures r.user.name == data.name && r.user.email == data.email && r.user.role == data.role
    ensures |r.users| == |users| + 1
    ensures r.users[..|users|] == users && r.users[|users|] == r.user
    ensures EntityStore.UniqueIds(users, Key) ==> EntityStore.UniqueIds(r.users, Key)
  {
    var u := User(id, data.name, data.email, data.role, now);
    EntityStore.AppendKeepsUnique(users, u, Key);
    Added(users + [u], u)
  }

  /** `{...user, ...data}`. */
  function Merge(u: User, data: UserData): User {
    u.(name := data.name, email := data.email, role := data.role)
  }

  /** The merge `updateUser` applies to each matching record. */
  function Merger(data: UserData): User -> User {
    u => Merge(u, data)
  }

  /** `updateUser`: every user carrying `id` takes the supplied name, email
      and role and keeps its id and `createdAt`; nothing else changes. */
  function UpdateUser(users: seq<User>, id: Id, data: UserData): (r: seq<User>)
    ensures |r| == |users|
    ensures forall i :: 0 <= i < |users| && users[i].id != id ==> r[i] == users[i]
    ensures forall i :: 0 <= i < |users| && users[i].id == id ==>
      && r[i].id == id && r[i].createdAt == users[i].createdAt
      && r[i].name == data.name && r[i].email == data.email && r[i].role == data.role
    ensures EntityStore.Fresh(users, Key, id) ==> r == users
  {
    EntityStore.UpdateWhere(users, Key, id, Merger(data))
  }

  /** `deleteUser`: the users not carrying `id`, in their order. */
  function DeleteUser(users: seq<User>, id: Id): (r: seq<User>)
    ensures forall i :: 0 <= i < |r| ==> r[i].id != id && r[i] in users
    ensures forall i :: 0 <= i < |users| && users[i].id != id ==> users[i] in r
    ensures EntityStore.Fresh(users, Key, id) ==> r == users
  {
    EntityStore.RemoveId(users, Key, id)
  }

  /** With unique ids, deleting an existing user drops exactly that record
      and keeps the others in their order. */
  lemma DeleteExistingUser(users: seq<User>, k: int)
    requires EntityStore.UniqueIds(users, Key) && 0 <= k < |users|
    ensures DeleteUser(users, users[k].id) == users[..k] + users[k + 1..]
    ensures |DeleteUser(users, users[k].id)| == |users| - 1
  {
    EntityStore.RemoveUnique(users, Key, k);
  }

  /** `getUserById`: the first user carrying `id`, or `null` (None). */
  function GetUserById(users: seq<User>, id: Id): (r: Option<User>)
    ensures r.None? <==> forall i :: 0 <= i < |users| ==> users[i].id != id
    ensures r.Some? ==> r.value.id == id && r.value in users
    ensures forall i :: EntityStore.IsFirstMatch(users, Key, id, i) ==> r == Some(users[i])
  {
    EntityStore.Find(users, Key, id)
  }

  /** Deleting a user twice is deleting it once. */
  lemma DeleteUserIdempotent(users: seq<User>, id: Id)
    ensures DeleteUser(DeleteUser(users, id), id) == DeleteUser(users, id)
  {
    EntityStore.RemoveIdempotent(users, Key, id);
  }

  /** Adding a user and deleting it by the returned id gives back the list. */
  lemma AddThenDeleteUser(users: seq<User>, data: UserData, id: Id, now: Timestamp)
    requires EntityStore.Fresh(users, Key, id)
    ensures var added := AddUser(users, data, id, now);
      DeleteUser(added.users, added.user.id) == users
  {
    var added := AddUser(users, data, id, now);
    EntityStore.AppendThenRemove(users, added.user, Key);
  }

  /** The user `addUser` returns is what a get of its id finds. */
  lemma GetAddedUser(users: seq<User>, data: UserData, id: Id, now: Timestamp)
    requires EntityStore.Fresh(users, Key, id)
    ensures var added := AddUser(users, data, id, now);
      GetUserById(added.users, id) == Some(added.user)
  {
    EntityStore.FindAppended(users, AddUser(users, data, id, now).user, Key);
  }

  /** Updating a user with the data it already holds changes nothing: no
      timestamp is refreshed. */
  lemma UpdateUserWithSameData(users: seq<User>, k: int)
    requires EntityStore.UniqueIds(users, Key) && 0 <= k < |users|
    ensures UpdateUser(users, users[k].id, UserData(users[k].name, users[k].email, users[k].role)) == users
  {
    var data := UserData(users[k].name, users[k].email, users[k].role);
    EntityStore.UpdateUnique(users, Key, k, Merger(data));
    assert Merger(data)(users[k]) == Merge(users[k], data);
    assert users[k := Merge(users[k], data)] == users;
  }

  /** The update merge never changes a record's id. */
  lemma MergerKeepsKey(data: UserData, id: Id)
    ensures EntityStore.KeepsKey(Merger(data), Key, id)
  {
    forall u: User | Key(u) == id
      ensures Key(Merger(data)(u)) == id
    {
      assert Merger(data)(u) == Merge(u, data);
    }
  }

  /** Updates and deletes keep the ids of the list distinct. */
  lemma UpdateUserKeepsUnique(users: seq<User>, id: Id, data: UserData)
    requires EntityStore.UniqueIds(users, Key)
    ensures EntityStore.UniqueIds(UpdateUser(users, id, data), Key)
  {
    MergerKeepsKey(data, id);
    EntityStore.UpdateKeepsKeys(users, Key, id, Merger(data));
  }

  lemma DeleteUserKeepsUnique(users: seq<User>, id: Id)
    requires EntityStore.UniqueIds(users, Key)
    ensures EntityStore.UniqueIds(DeleteUser(users, id), Key)
  {
    EntityStore.RemoveKeepsUnique(users, Key, id);
  }
}
